=== FILE: README.md ===
# Ceramics portfolio: carousel, masonry gallery and tilt card

This project models, in Dafny, the logic of three interactive parts of a ceramic
artist's portfolio site.

- **The review carousel** (`Reviews.tsx`) is a WebGL strip of review cards.
  - The list of reviews is doubled into a track.
  - Each card gets a slot of the track.
  - The scroll offset eases towards a target that drag and wheel input move.
  - A release or a settled wheel snaps the target to a slot boundary.
  - A card that leaves the viewport in the direction of travel jumps by a whole
    track width, so the strip never ends.
  - Cards bend along a circular arc.
  - Each card texture wraps the review text word by word into at most four lines,
    with an ellipsis, under a row of five stars.
- **The masonry showcase** (`Showcase.tsx`) is a gallery of pieces.
  - Media queries choose the column count and the phone mode.
  - The measured container width is smoothed with a 5 px hysteresis.
  - Each piece goes to the first shortest column.
  - On phones the pieces are paginated six at a time behind a "show more" button.
  - Clicking a card flips it into a centred box, and clicking it again or
    clicking outside flips it back.
- **The tilt card** (`About.tsx`) follows the pointer.
  - The pointer offset becomes clamped percentages.
  - Those percentages give a distance from the centre and two rotations.
  - Pointer moves are throttled to one per 16 ms.
  - On leaving, the card returns to its centre with a cubic ease-in-out
    animation.

JavaScript numbers are modelled as exact `real`s. Browser services appear as
function parameters: `Math.sqrt`, `Math.asin`, `Math.hypot`, `measureText` and
`matchMedia`. Where a property depends on what such a service returns, the
property is stated under an explicit predicate on the parameter, such as
`IsSqrt`, `AsinNonNegative` or `IsHypot`.

Modules, one per file:

- `Numeric` and `Options`: shared arithmetic and `Option`.
- `Track`: reviews, the doubled track and the slot geometry.
- `Scroll`: the scroll state and its input handlers.
- `Curve`: the arc.
- `Carousel`: cards, frames, resize, and the event-driven app.
- `CardText`: split, wrap, trim, ellipsis and stars.
- `Masonry`: the column layout.
- `Gallery`: media queries, measuring, pagination and the flip.
- `Tilt`: the pointer tilt, the easing animation and the throttle.

## Model

| member | source | states |
|---|---|---|
| Track.ReviewsToUse | src/components/Reviews.tsx:519 | A missing or empty review list falls back to the six defaults. Any other list is used unchanged. The result is never empty. |
| Track.BuildTrack | src/components/Reviews.tsx:519-520 | The track is the list followed by a copy of itself: card `i` and card `i + N` show the same review, and the length is even and at least 2. |
| Track.EmptyFallsBack | src/components/Reviews.tsx:481-520 | With no reviews the track has twelve cards, and each half is the six built-in reviews. |
| Track.SlotLayout | src/components/Reviews.tsx:373-387 | The plane is `viewport.width · 800 · (screen.height / 1500) / screen.width` wide and `viewport.height · 900 · (screen.height / 1500) / screen.height` tall. A slot is the plane width plus 3 of padding, and is at least the padding for a non-negative viewport. The home position is `index` slots along, and the track width is `length` slots. |
| Track.ViewportFor | src/components/Reviews.tsx:577-583 | The derived viewport has the camera's height, and its width over that height is the container's aspect ratio. It is positive for a positive height and container. |
| Track.SlotIgnoresScreen | src/components/Reviews.tsx:373-387 | With the viewport derived from the container, the plane is `viewHeight · 800 / 1500` wide and `viewHeight · 900 / 1500` tall, whatever the container's size. |
| Track.SlotSameForAnyScreen | src/components/Reviews.tsx:373-387 | With derived viewports, two containers of any sizes give the same slot for every card. |
| Track.SlotsTile | src/components/Reviews.tsx:383-386 | All cards of one layout share slot and track widths. Neighbours are exactly one slot apart, and the last slot ends at the track width. |
| Track.TwinsHalfTrackApart | src/components/Reviews.tsx:383-386 | The copy of card `i` in the second half sits exactly half a track width further along. |
| Scroll.Initial | src/components/Reviews.tsx:436 | The scroll starts at rest at offset 0, with no drag and no pending snap. |
| Scroll.Lerp | src/components/Reviews.tsx:23-25 | For `t` in [0, 1] the result lies between the endpoints and leaves exactly a fraction `1 - t` of the distance. `t = 0` and `t = 1` give the endpoints. |
| Scroll.Tick | src/components/Reviews.tsx:591-602 | One frame moves `current` towards `target` without overshooting and keeps 0.92 of the signed distance. The direction is Right iff the new offset exceeds `last`. `last` becomes the new offset, and nothing else changes. |
| Scroll.TicksConverge | src/components/Reviews.tsx:591-602 | With no input, after `n` frames the target is unchanged and exactly `0.92^n` of the signed distance to it remains. |
| Scroll.PointerDown | src/components/Reviews.tsx:538-542 | A press starts a drag anchored at the pointer and at the current offset. The offsets are untouched. |
| Scroll.PointerMove | src/components/Reviews.tsx:544-549 | Without a drag, a move changes nothing. During a drag the target is the anchor offset plus 0.04 per pixel moved leftwards. Only the target changes. |
| Scroll.PressWithoutDisplacement | src/components/Reviews.tsx:538-549 | A press followed by a move to the same point sets the target to the offset at the press, so a drag never jumps. |
| Scroll.DragLinear | src/components/Reviews.tsx:544-549 | Two moves in one drag differ in target by 0.04 times the pointer distance, in the opposite sense. |
| Scroll.WheelDelta | src/components/Reviews.tsx:558 | The wheel step is 1.5 in size. It is positive iff `deltaY` is positive, so a zero delta scrolls back. |
| Scroll.Wheel | src/components/Reviews.tsx:556-561 | A wheel event moves only the target, by one signed step, and arms the debounced snap. |
| Scroll.WheelBackAndForth | src/components/Reviews.tsx:556-561 | One step down and one step up, in either order, restore the target. |
| Scroll.SnapIndex | src/components/Reviews.tsx:566 | The index is the target's magnitude over the width, rounded half up: within half a unit below and at most half a unit above. |
| Scroll.SnapTarget | src/components/Reviews.tsx:563-569 | The snapped target is a whole number of slots, keeps the sign of the target, and is at most half a slot away from it. |
| Scroll.SnapIdempotent | src/components/Reviews.tsx:563-569 | Snapping an already snapped target leaves it unchanged. |
| Scroll.Check | src/components/Reviews.tsx:563-569 | With no cards the state is unchanged. Otherwise only the target changes, to the target snapped by the first card's slot width. |
| Scroll.PointerUp | src/components/Reviews.tsx:551-554 | A release ends the drag and snaps immediately. The offsets are unchanged. |
| Scroll.DebounceFire | src/components/Reviews.tsx:15-21 | The 200 ms timer applies a pending snap and disarms it. With nothing pending it does nothing. |
| Scroll.ReleaseRestsOnSlot | src/components/Reviews.tsx:551-569 | After a release, or when the debounce timer fires after a wheel, the target is on a slot boundary, and a further check does not move it. |
| Curve.Radius | src/components/Reviews.tsx:341-342 | For a non-zero bend the arc radius is positive and at least the half viewport width. |
| Curve.EffectiveX | src/components/Reviews.tsx:343 | The horizontal distance used is the magnitude of x capped at the half width: at most both, and equal to one of them. |
| Curve.CurveDomain | src/components/Reviews.tsx:341-347 | The square root and the `asin` arguments are in their domains: `R² - e² >= 0` and `e / R` is in [0, 1]. |
| Curve.CurvePose | src/components/Reviews.tsx:334-355 | The card keeps its x. With no bend it is flat and level. Otherwise its vertical offset has the sagitta's magnitude, and the centre card is never rotated. |
| Curve.CurveSign | src/components/Reviews.tsx:339-355 | The sagitta lies in [0, R]. A positive bend lowers cards, a negative bend raises them, and the centre card stays at height 0. |
| Curve.RotationSign | src/components/Reviews.tsx:347-354 | For a positive bend, cards right of centre tilt one way and cards left of centre the other. A negative bend reverses both. |
| Curve.CurveSymmetric | src/components/Reviews.tsx:334-355 | Mirroring a card's x leaves its height unchanged and negates its rotation. |
| Carousel.UpdateCard | src/components/Reviews.tsx:328-371 | A card moving right that has fully passed the left edge jumps forward one track width. A card moving left past the right edge jumps back one. Otherwise `extra` is unchanged, and the flags record which edge it is beyond. The pose follows the arc and the speed is the frame delta. |
| Carousel.WrapCondition | src/components/Reviews.tsx:357-370 | `extra` decreases iff the card moves right past the left edge, and increases iff it moves left past the right edge. The card's position then shifts by exactly one track width. |
| Carousel.NeverBothSides | src/components/Reviews.tsx:357-362 | No card is ever before the left edge and after the right edge at once. |
| Carousel.UpdateKeepsLattice | src/components/Reviews.tsx:363-370 | A frame keeps every card's wrap offset a whole number of track widths. |
| Carousel.NewCard | src/components/Reviews.tsx:522-536 | A new card has its index, the track length and its slot layout, with zero wrap offset, zero speed and no flags. |
| Carousel.CreateCards | src/components/Reviews.tsx:518-536 | There is one card per track entry, in track order, each told its index and the track length. |
| Carousel.FirstWidth | src/components/Reviews.tsx:563-565 | The snapping width is absent iff there are no cards. Otherwise it is the first card's slot width. |
| Carousel.Frame | src/components/Reviews.tsx:591-603 | One frame ticks the scroll, then updates every card with the new offset, the previous `last` and the tick's direction. The size and the bend are unchanged. |
| Carousel.FrameKeepsValid | src/components/Reviews.tsx:591-603 | A frame preserves the app invariant: slots match the layout and wrap offsets stay on the lattice. |
| Carousel.ResizeCard | src/components/Reviews.tsx:373-387 | A resize lays the slot out again for the new sizes and keeps the wrap offset `extra`. Nothing else changes. |
| Carousel.ResizeLeavesCard | src/components/Reviews.tsx:373-387 | A card laid out for one container, resized to any other through the same camera, is unchanged, so a wrap offset of whole track widths stays one. |
| Carousel.Resize | src/components/Reviews.tsx:571-589 | A window resize records the new container size and the viewport derived from it at the same camera height, and resizes every card. The scroll and the bend are unchanged. |
| Carousel.ResizeKeepsValid | src/components/Reviews.tsx:571-589 | A resize to a positive container leaves every card as it was, slot and wrap offset alike, and preserves the app invariant. |
| Carousel.Step | src/components/Reviews.tsx:538-603 | Each event is dispatched to its handler. Only frames change the cards, the camera height never changes, and every step preserves the invariant. |
| Carousel.Mount | src/components/Reviews.tsx:426-445 | A mounted app satisfies the invariant, with the viewport derived from the container, two cards per review used and the scroll at 0. |
| Carousel.Run | src/components/Reviews.tsx:538-603 | Any sequence of well-formed events preserves the invariant, the card count and the camera height. |
| Carousel.SeamlessAfterAnyRun | src/components/Reviews.tsx:328-387 | After mounting and any sequence of events, including resizes, the viewport is still derived from the latest container, every card's slot matches the current layout, and its wrap offset is a whole number of track widths. |
| CardText.Split | src/components/Reviews.tsx:119 | `split(' ')` yields at least one part. No part contains a space, and joining the parts with spaces gives back the text. |
| CardText.SplitJoin | src/components/Reviews.tsx:119 | Splitting space-free parts joined by spaces gives back the parts. |
| CardText.Trim | src/components/Reviews.tsx:130 | The trimmed line is one slice of the original with only white space before and after it, and it neither starts nor ends with white space. |
| CardText.TrimIdempotent | src/components/Reviews.tsx:130 | Trimming twice is trimming once. |
| CardText.Wrap | src/components/Reviews.tsx:119-136 | The lines, read in order, are exactly the words. A word joins a line after its first only while the measured line still fits, and for a non-empty list of words no line is an empty word group. A group may still consist of one empty word, which is drawn as an empty string. |
| CardText.WrapFits | src/components/Reviews.tsx:126-134 | Every word after a line's first was added while the measured line still fitted the width. |
| CardText.BreakOnlyWhenFull | src/components/Reviews.tsx:126-134 | A line is closed only when adding the next line's first word would exceed the width. |
| CardText.WrapText | src/components/Reviews.tsx:119-136 | The imperative loop yields at least one line, and exactly the trimmed lines of the reference wrap. |
| CardText.LastIndexOf | src/components/Reviews.tsx:144 | The result is -1 iff the character is absent. Otherwise it is the position of the last occurrence. |
| CardText.Ellipsize | src/components/Reviews.tsx:142-145 | A cut line ends in `...`. It keeps the text before its last space, or becomes just `...` when there is no space. |
| CardText.DrawnLines | src/components/Reviews.tsx:139-147 | At most four lines are drawn. Short texts are drawn in full. A longer text keeps its first three lines and ellipsizes the fourth. |
| CardText.ReviewLines | src/components/Reviews.tsx:119-147 | A card draws between one and four lines, namely the drawn lines of the wrapped review. |
| CardText.WrapKeepsText | src/components/Reviews.tsx:119-136 | Wrapping loses and invents no text. |
| CardText.StarRow | src/components/Reviews.tsx:94-105 | There are five stars, and star `i` is filled iff `i` is below the rating. |
| CardText.FilledFirst | src/components/Reviews.tsx:94-105 | Filled stars come before empty ones. |
| CardText.StarCount | src/components/Reviews.tsx:94-105 | A whole rating from 0 to 5 fills exactly that many stars. Ratings above 4 fill all five, and non-positive ratings fill none. |
| Masonry.ArgMinIsFirstMinimum | src/components/Showcase.tsx:273 | The chosen column holds the smallest height, and every earlier column is strictly taller. |
| Masonry.ItemHeight | src/components/Showcase.tsx:275 | A piece is drawn at half its height, capped at 280 on phones, and never at a negative height. |
| Masonry.ColumnsFill | src/components/Showcase.tsx:268-270 | The columns and the gaps between them exactly fill the container width. |
| Masonry.Layout | src/components/Showcase.tsx:258-286 | A zero-width container has an empty grid. Otherwise piece `i` is placed in the first shortest column after the pieces before it, and the container is as tall as the tallest column. |
| Masonry.GridKeepsItems | src/components/Showcase.tsx:272-279 | The grid has one entry per displayed piece, in the same order and with the same id. Each entry sits in an existing column, with the common column width and the piece's drawn height. |
| Masonry.ComputeGrid | src/components/Showcase.tsx:258-286 | The one-pass computation with a running array of column heights yields exactly that layout. |
| Masonry.HeightsGrow | src/components/Showcase.tsx:275-277 | Column heights never shrink as pieces are added. |
| Masonry.NoOverlapInColumn | src/components/Showcase.tsx:272-279 | A later piece in the same column starts at least one gap below the bottom of an earlier one. |
| Masonry.ContainerHoldsItems | src/components/Showcase.tsx:272-282 | Every piece, plus one gap, ends within the container height. |
| Masonry.CatalogueLayout | src/components/Showcase.tsx:168-282 | In any container of non-zero width the eighteen showcase pieces all appear, in order, and each fits within the container height. |
| Masonry.ColumnsInsideContainer | src/components/Showcase.tsx:267-278 | Every piece lies horizontally within the container. Pieces in different columns are at least one gap apart. |
| Gallery.FindIndex | src/components/Showcase.tsx:44-45 | `findIndex` gives -1 iff no query matches. Otherwise it gives the first matching query. |
| Gallery.MediaValue | src/components/Showcase.tsx:44-45 | The value of the first matching query, or the default when none matches or the matching index is past the values. |
| Gallery.ColumnsForWidth | src/components/Showcase.tsx:189-200 | At viewport width `w` the gallery has 5, 4, 3, 2 or 1 columns, by the thresholds 1500, 1000, 768 and 400. Phone mode holds iff `w <= 767`. |
| Gallery.ColumnsMonotone | src/components/Showcase.tsx:189-200 | A wider viewport never has fewer columns, and phone mode has at most two. |
| Gallery.Measure | src/components/Showcase.tsx:89-95 | The stored size either stays as it was or becomes the new measurement. |
| Gallery.MeasureTracks | src/components/Showcase.tsx:89-95 | The stored size is within 5 px of the measurement in both dimensions. It changes iff some dimension differs by more than 5 px. Measuring the same size again changes nothing. |
| Gallery.VisibleOnModeChange | src/components/Showcase.tsx:217-223 | Leaving phone mode shows every piece, and entering it shows one page of six. |
| Gallery.Displayed | src/components/Showcase.tsx:225-227 | Wide screens display every piece. Phones display the first `min(visible, total)` pieces, in order. |
| Gallery.ShowMore | src/components/Showcase.tsx:435-438 | A press reveals at most six more pieces, never beyond the total, and always at least one while some are hidden. |
| Gallery.NoButtonShowsAll | src/components/Showcase.tsx:650 | When the "show more" button is hidden, every piece is displayed. |
| Gallery.PressesReveal | src/components/Showcase.tsx:435-438 | `k` presses show `min(visible + 6k, total)` pieces. |
| Gallery.PressesRevealAll | src/components/Showcase.tsx:435-438 | Starting from one page, `ceil((total - 6) / 6)` presses show everything and hide the button. |
| Gallery.Find | src/components/Showcase.tsx:417 | Absent iff no grid item has the id. Otherwise it is the first item with it. |
| Gallery.CardClick | src/components/Showcase.tsx:393-433 | A click leaves the flipped card unchanged, flips this card, or clears it. If the card's element or the container is missing, nothing changes. Otherwise clicking a card that is not flipped flips it, whether or not it is in the grid. Clicking the flipped card clears it exactly when the card has a grid item, and otherwise leaves it flipped. |
| Gallery.ClickToggles | src/components/Showcase.tsx:393-433 | With the elements present, clicking a card toggles it, two clicks restore the unflipped state, and clicking another card moves the flip to it. |
| Gallery.ClickOutside | src/components/Showcase.tsx:469-498 | A click outside either keeps the flipped card or clears it. |
| Gallery.ClickOutsideClears | src/components/Showcase.tsx:469-498 | After a click outside, nothing is flipped iff nothing was, or the flipped card exists, the click was outside it, and it has a grid slot. |
| Gallery.ExpandedBox | src/components/Showcase.tsx:399-405 | The expanded card is centred in the container. It is 420 by 320 on wide screens and at most 350 by 280 on phones. |
| Gallery.ExpandedFitsPhone | src/components/Showcase.tsx:401-405 | On phones the expanded card keeps at least 16 px at the sides and 50 px at the top and bottom. |
| Tilt.Percent | src/components/About.tsx:39-40 | The pointer percentage is in [0, 100]. |
| Tilt.PercentShape | src/components/About.tsx:39-40 | The percentage grows with the offset. It is 0 at or left of the edge, 100 at or beyond the far edge, and 50 at the middle. |
| Tilt.CardTransform | src/components/About.tsx:31-52 | The pointer is at the clamped percentages of the offsets across the card, and the from-top and from-left fractions are those percentages over 100. The from-centre distance is the capped `hypot` of the centre offsets over 50. The card turns about x by minus the horizontal centre offset over 12 and about y by the vertical centre offset over 10, so the rotations stay within 50/12 and 5 degrees. |
| Tilt.PercentAgainstMiddle | src/components/About.tsx:40-41 | The percentage is above 50 exactly when the offset is past the middle of the card, and below 50 exactly when it is before it. |
| Tilt.TiltFollowsPointer | src/components/About.tsx:41-51 | The card rotates about x against the pointer's horizontal position relative to the card's middle, and about y with its vertical position, by sign in both directions, stated for both the percentages and the raw offsets. A pointer at the middle gives no tilt. |
| Tilt.FromCenterRange | src/components/About.tsx:47 | The from-centre distance is in [0, 1]. It is 0 exactly at the centre and 1 on the border. |
| Tilt.Progress | src/components/About.tsx:66-67 | Animation progress is in [0, 1]. |
| Tilt.ProgressCompletes | src/components/About.tsx:66-67 | Progress is below 1 iff the duration has not elapsed, and it is 0 before the start. |
| Tilt.ProgressMonotone | src/components/About.tsx:66-67 | Progress never decreases with time. |
| Tilt.EasedHalves | src/components/About.tsx:68 | The easing is `4p³` on the first half and its mirror image `1 - 4(1-p)³` on the second. |
| Tilt.EasedEndpoints | src/components/About.tsx:68 | The easing maps 0, 1/2 and 1 to themselves. |
| Tilt.EasedSymmetric | src/components/About.tsx:68 | The easing is point-symmetric about (1/2, 1/2). |
| Tilt.EasedMonotone | src/components/About.tsx:68 | On [0, 1] the easing is non-decreasing with values in [0, 1]. |
| Tilt.InterpolateBetween | src/components/About.tsx:69-70 | Interpolation gives the start at 0 and the target at 1, and lies between them in between. |
| Tilt.AnimationFrame | src/components/About.tsx:65-77 | Another frame is requested iff the duration has not elapsed. After it the card is at the target, and before the start it is at the start. |
| Tilt.FramesApproach | src/components/About.tsx:54-81 | Frames stay between start and target, and later frames are never farther from the target. |
| Tilt.Remaining | src/components/About.tsx:69-70 | More easing progress leaves less distance to the target. |
| Tilt.ReturnSettlesFlat | src/components/About.tsx:54-81 | When the return animation ends, no further frame is requested and the card is flat with the pointer at its centre. |
| Tilt.Throttle | src/components/About.tsx:94-98 | A move is handled iff at least 16 ms have passed since the last handled one. Only a handled move updates that time. |
| Tilt.HandledSpaced | src/components/About.tsx:94-98 | The handled moves of any sequence are drawn from it. Each comes at least 16 ms after the previous handled time, and consecutive handled moves are at least 16 ms apart. |
| Tilt.HandledIsSubsequence | src/components/About.tsx:94-98 | The handled moves are an ordered subsequence of the stream: each is the move at its own position, and those positions increase. |

## Left out

- Drawing is left out: WebGL, shaders, textures, canvas gradients, fonts, the `uTime` and `uSpeed` uniforms, and CSS strings with `toFixed`. None of them feed back into the modelled state.
- GSAP tweens, `requestAnimationFrame` and `setTimeout` scheduling, and event-listener registration are left out. Timers and frames appear as explicit events, or as a `now` parameter.
- Image preloading and the grid's memo shortcut, which reuses the previous grid when the item count matches and the width moved less than 10 px, are left out. The model always recomputes.
- The viewport is derived from the container as `App.onResize` does (Reviews.tsx:577-583). The camera's world height `2·tan(fov/2)·z`, fixed by the camera of Reviews.tsx:464-468, is the positive parameter `viewHeight`, since `tan` is not modelled.
- IEEE-754 rounding, NaN and the infinities are left out. Numbers are exact reals, so divisions by a card, screen or animation size require that size to be positive.
- The hydration defaults of `useMedia` and `useMeasure` before the first effect runs are left out, and so is the 16 ms debounce of the ResizeObserver callback. Only the measured value after it fires is modelled.
- The media-query strings are matched by a `matches` parameter. The model does not parse CSS media queries.
- The `last` field follows the code (Reviews.tsx:602): it is set to the post-update offset at the end of each frame.
- Track widths follow the code (Reviews.tsx:386): `widthTotal` spans all 2N cards of the doubled track.
- Masonry.Place: carries no contract of its own. It is the declarative reference that `Masonry.Layout` and `Masonry.ComputeGrid` are stated against.
- Tilt.FromCenterRange: assumes only that `hypot` lies between the larger leg and the sum of the legs. It states the range and the zero and border cases, not the exact Euclidean value.
- Tilt.ReturnSettlesFlat: takes the card and its wrapper to have the same size. The source aims at the wrapper's centre and measures percentages against the card.
- Curve.CurveSign: assumes `sqrt` is a non-negative square root on non-negative inputs. Curve.RotationSign assumes `asin` is non-negative on [0, 1].

=== FILE: cardtext.dfy ===
/** The text of a review card (`createReviewTexture`): the review split into
    words on single spaces, greedily wrapped into lines no wider than the
    text column, cut to four lines with an ellipsis, and the five-star
    rating row. Text width is the canvas's `measureText`, passed in as a
    function from a string to its width. */
module CardText {
  import opened Numeric

  /** The canvas card width and the text column inside its 50-pixel
      margins. */
  const CardWidth: real := 700.0
  const MaxWidth: real := CardWidth - 100.0
  /** At most this many lines are drawn. */
  const MaxLines: nat := 4

  // ---------------------------------------------------------------------
  // `String.prototype.split(' ')` and its inverse

  /** The parts joined back with single spaces. */
  function Join(parts: seq<string>): string
  {
    if |parts| == 0 then ""
    else if |parts| == 1 then parts[0]
    else parts[0] + " " + Join(parts[1..])
  }

  /** `s.split(' ')`: the maximal runs between single spaces, including the
      empty runs around leading, trailing or doubled spaces. There is
      always at least one part, and joining the parts gives `s` back. */
  function Split(s: string): (parts: seq<string>)
    ensures |parts| >= 1
    ensures forall i :: 0 <= i < |parts| ==> ' ' !in parts[i]
    ensures Join(parts) == s
    decreases |s|
  {
    if |s| == 0 then [""]
    else
      var rest := Split(s[1..]);
      if s[0] == ' ' then
        assert Join([""] + rest) == "" + " " + Join(rest) by {
          assert ([""] + rest)[1..] == rest;
        }
        [""] + rest
      else
        var parts := [[s[0]] + rest[0]] + rest[1..];
        assert Join(parts) == s by {
          if |rest| > 1 {
            assert parts[1..] == rest[1..];
          }
        }
        parts
  }

  lemma {:induction false} SplitWord(p: string)
    requires ' ' !in p
    ensures Split(p) == [p]
    decreases |p|
  {
    if |p| > 0 {
      SplitWord(p[1..]);
    }
  }

  lemma {:induction false} SplitAfterWord(p: string, t: string)
    requires ' ' !in p
    ensures Split(p + " " + t) == [p] + Split(t)
    decreases |p|
  {
    if |p| == 0 {
      assert p + " " + t == [' '] + t;
      assert (p + " " + t)[1..] == t;
    } else {
      SplitAfterWord(p[1..], t);
      assert (p + " " + t)[1..] == p[1..] + " " + t;
      var rest := Split(p[1..] + " " + t);
      assert rest == [p[1..]] + Split(t);
      assert rest[0] == p[1..] && rest[1..] == Split(t);
      assert [p[0]] + p[1..] == p;
    }
  }

  /** Splitting parts that hold no space after joining them gives the parts
      back: `split` and `join` are inverse on such lists. */
  lemma {:induction false} SplitJoin(parts: seq<string>)
    requires |parts| >= 1
    requires forall i :: 0 <= i < |parts| ==> ' ' !in parts[i]
    ensures Split(Join(parts)) == parts
  {
    if |parts| == 1 {
      SplitWord(parts[0]);
    } else {
      SplitJoin(parts[1..]);
      SplitAfterWord(parts[0], Join(parts[1..]));
      assert [parts[0]] + parts[1..] == parts;
    }
  }

  // ---------------------------------------------------------------------
  // `String.prototype.trim`

  /** The characters `trim` removes: ECMAScript white space and line
      terminators. */
  predicate IsJsSpace(c: char)
  {
    || c == '\t' || c == '\n' || c == '\U{000B}' || c == '\U{000C}' || c == '\r'
    || c == ' ' || c == '\U{00A0}' || c == '\U{1680}'
    || ('\U{2000}' <= c <= '\U{200A}')
    || c == '\U{2028}' || c == '\U{2029}' || c == '\U{202F}' || c == '\U{205F}'
    || c == '\U{3000}' || c == '\U{FEFF}'
  }

  function TrimStart(s: string): (r: string)
    ensures |r| <= |s| && r == s[|s| - |r|..]
    ensures forall i :: 0 <= i < |s| - |r| ==> IsJsSpace(s[i])
    ensures |r| > 0 ==> !IsJsSpace(r[0])
  {
    if |s| > 0 && IsJsSpace(s[0]) then TrimStart(s[1..]) else s
  }

  function TrimEnd(s: string): (r: string)
    ensures |r| <= |s| && r == s[..|r|]
    ensures forall i :: |r| <= i < |s| ==> IsJsSpace(s[i])
    ensures |r| > 0 ==> !IsJsSpace(r[|r| - 1])
  {
    if |s| > 0 && IsJsSpace(s[|s| - 1]) then TrimEnd(s[..|s| - 1]) else s
  }

  /** `s.trim()`: `s` without its leading and trailing white space. */
  function Trim(s: string): (r: string)
    ensures |r| <= |s|
    ensures |r| > 0 ==> !IsJsSpace(r[0]) && !IsJsSpace(r[|r| - 1])
    ensures exists a, b ::
      && 0 <= a <= b <= |s| && r == s[a..b]
      && (forall k :: 0 <= k < a ==> IsJsSpace(s[k]))
      && (forall k :: b <= k < |s| ==> IsJsSpace(s[k]))
  {
    var t := TrimStart(s);
    var r := TrimEnd(t);
    TrimmedSlice(s, t, r);
    r
  }

  /** Trimming the front and then the back keeps one slice of `s` and drops
      only white space on either side of it. */
  lemma TrimmedSlice(s: string, t: string, r: string)
    requires |t| <= |s| && t == s[|s| - |t|..]
    requires forall i :: 0 <= i < |s| - |t| ==> IsJsSpace(s[i])
    requires |r| <= |t| && r == t[..|r|]
    requires forall i :: |r| <= i < |t| ==> IsJsSpace(t[i])
    ensures exists a, b ::
      && 0 <= a <= b <= |s| && r == s[a..b]
      && (forall k :: 0 <= k < a ==> IsJsSpace(s[k]))
      && (forall k :: b <= k < |s| ==> IsJsSpace(s[k]))
  {
    var a := |s| - |t|;
    var b := a + |r|;
    assert r == s[a..b];
    forall k | b <= k < |s|
      ensures IsJsSpace(s[k])
    {
      assert s[k] == t[k - a];
    }
  }

  /** A trimmed string is its own trim. */
  lemma TrimIdempotent(s: string)
    ensures Trim(Trim(s)) == Trim(s)
  {
    var r := Trim(s);
    assert TrimStart(r) == r;
    assert TrimEnd(r) == r;
  }

  // ---------------------------------------------------------------------
  // Greedy word wrap

  /** The `currentLine` string built from a line's words: each word
      followed by one space. */
  function Render(line: seq<string>): (s: string)
    ensures |line| > 0 ==> |s| > 0 && s[|s| - 1] == ' '
    ensures |line| == 0 ==> s == ""
  {
    if |line| == 0 then "" else Render(line[..|line| - 1]) + line[|line| - 1] + " "
  }

  lemma RenderAppend(line: seq<string>, w: string)
    ensures Render(line + [w]) == Render(line) + w + " "
  {
    assert (line + [w])[..|line|] == line;
  }

  /** A rendered line is its words joined, plus the trailing space. */
  lemma {:induction false} RenderIsJoin(line: seq<string>)
    requires |line| > 0
    ensures Render(line) == Join(line) + " "
    decreases |line|
  {
    if |line| > 1 {
      var init := line[..|line| - 1];
      RenderIsJoin(init);
      JoinSnoc(init, line[|line| - 1]);
      assert init + [line[|line| - 1]] == line;
    }
  }

  lemma {:induction false} JoinSnoc(parts: seq<string>, w: string)
    requires |parts| > 0
    ensures Join(parts + [w]) == Join(parts) + " " + w
    decreases |parts|
  {
    if |parts| == 1 {
      assert (parts + [w])[1..] == [w];
    } else {
      JoinSnoc(parts[1..], w);
      assert (parts + [w])[1..] == parts[1..] + [w];
    }
  }

  /** All the words of all lines, in order. */
  function Flatten(lines: seq<seq<string>>): seq<string>
  {
    if |lines| == 0 then [] else lines[0] + Flatten(lines[1..])
  }

  /** Every word after the first on a line was added because the line with
      it still measured within `maxWidth`. */
  ghost predicate LineFits(line: seq<string>, measure: string -> real, maxWidth: real)
  {
    forall j :: 1 <= j < |line| ==> measure(Render(line[..j]) + line[j] + " ") <= maxWidth
  }

  /** The greedy wrap, continuing a line that already holds `current`: a
      word moves to a fresh line exactly when the current line is not empty
      and adding the word would make it wider than `maxWidth`. The result
      holds every word once and in order, every line after the first is
      non-empty, and the first line extends `current`. */
  function WrapFrom(current: seq<string>, words: seq<string>, measure: string -> real, maxWidth: real): (lines: seq<seq<string>>)
    ensures |lines| >= 1
    ensures Flatten(lines) == current + words
    ensures |lines[0]| >= |current| && lines[0][..|current|] == current
    ensures forall i :: 1 <= i < |lines| ==> |lines[i]| > 0
    decreases |words|
  {
    if |words| == 0 then
      assert Flatten([current]) == current;
      [current]
    else
      var w := words[0];
      if Breaks(current, w, measure, maxWidth) then
        var rest := WrapFrom([w], words[1..], measure, maxWidth);
        FlattenCons(current, rest);
        assert [w] + words[1..] == words;
        [current] + rest
      else
        var next := current + [w];
        assert next[..|current|] == current;
        var rest := WrapFrom(next, words[1..], measure, maxWidth);
        assert rest[0][..|current|] == rest[0][..|next|][..|current|];
        assert next + words[1..] == current + words;
        rest
  }

  /** The wrap test of the loop: the line holds something and adding `w`
      would make it too wide. */
  predicate Breaks(current: seq<string>, w: string, measure: string -> real, maxWidth: real)
  {
    measure(Render(current) + w + " ") > maxWidth && current != []
  }

  lemma FlattenCons(line: seq<string>, rest: seq<seq<string>>)
    ensures Flatten([line] + rest) == line + Flatten(rest)
  {
    assert ([line] + rest)[1..] == rest;
  }

  /** A line grown by a word that fits still fits. */
  lemma LineFitsExtend(current: seq<string>, w: string, measure: string -> real, maxWidth: real)
    requires LineFits(current, measure, maxWidth)
    requires !Breaks(current, w, measure, maxWidth)
    ensures LineFits(current + [w], measure, maxWidth)
  {
    var next := current + [w];
    forall j | 1 <= j < |next|
      ensures measure(Render(next[..j]) + next[j] + " ") <= maxWidth
    {
      if j < |current| {
        assert next[..j] == current[..j];
      } else {
        assert next[..j] == current;
      }
    }
  }

  /** Every wrapped line fits: each word after the first on a line was
      added only because the line with it measured within `maxWidth`. */
  lemma {:induction false} WrapFits(current: seq<string>, words: seq<string>, measure: string -> real, maxWidth: real)
    requires LineFits(current, measure, maxWidth)
    ensures forall i :: 0 <= i < |WrapFrom(current, words, measure, maxWidth)| ==>
      LineFits(WrapFrom(current, words, measure, maxWidth)[i], measure, maxWidth)
    decreases |words|
  {
    if |words| > 0 {
      var w := words[0];
      WrapUnfold(current, words, measure, maxWidth);
      if Breaks(current, w, measure, maxWidth) {
        assert LineFits([w], measure, maxWidth);
        WrapFits([w], words[1..], measure, maxWidth);
      } else {
        LineFitsExtend(current, w, measure, maxWidth);
        WrapFits(current + [w], words[1..], measure, maxWidth);
      }
    }
  }

  /** Every line is non-empty when there is at least one word. */
  lemma NoEmptyLine(current: seq<string>, words: seq<string>, measure: string -> real, maxWidth: real)
    ensures current != [] || words != [] ==>
      forall i :: 0 <= i < |WrapFrom(current, words, measure, maxWidth)| ==>
        |WrapFrom(current, words, measure, maxWidth)[i]| > 0
  {
    var lines := WrapFrom(current, words, measure, maxWidth);
    if current == [] && words != [] {
      assert !Breaks(current, words[0], measure, maxWidth);
      assert lines == WrapFrom([words[0]], words[1..], measure, maxWidth);
    }
  }

  /** The wrapped lines of a word list, as word groups. */
  function Wrap(words: seq<string>, measure: string -> real, maxWidth: real): (lines: seq<seq<string>>)
    ensures |lines| >= 1
    ensures Flatten(lines) == words
    ensures forall i :: 0 <= i < |lines| ==> LineFits(lines[i], measure, maxWidth)
    ensures words != [] ==> forall i :: 0 <= i < |lines| ==> |lines[i]| > 0
  {
    assert LineFits([], measure, maxWidth);
    WrapFits([], words, measure, maxWidth);
    NoEmptyLine([], words, measure, maxWidth);
    WrapFrom([], words, measure, maxWidth)
  }

  /** A line is broken only when it is full: the first word of every line
      after the first would have made the line before it wider than
      `maxWidth`. */
  lemma {:induction false} BreakOnlyWhenFull(current: seq<string>, words: seq<string>, measure: string -> real, maxWidth: real)
    ensures forall i :: 0 <= i < |WrapFrom(current, words, measure, maxWidth)| - 1 ==>
      measure(Render(WrapFrom(current, words, measure, maxWidth)[i])
              + WrapFrom(current, words, measure, maxWidth)[i + 1][0] + " ") > maxWidth
    decreases |words|
  {
    if |words| > 0 {
      var w := words[0];
      if Breaks(current, w, measure, maxWidth) {
        BreakOnlyWhenFull([w], words[1..], measure, maxWidth);
        var rest := WrapFrom([w], words[1..], measure, maxWidth);
        assert rest[0][..1] == [w];
        var lines := [current] + rest;
        assert WrapFrom(current, words, measure, maxWidth) == lines;
        forall i | 0 <= i < |lines| - 1
          ensures measure(Render(lines[i]) + lines[i + 1][0] + " ") > maxWidth
        {
          if i == 0 {
            assert lines[1][0] == w;
          } else {
            assert lines[i] == rest[i - 1] && lines[i + 1] == rest[i];
          }
        }
      } else {
        BreakOnlyWhenFull(current + [w], words[1..], measure, maxWidth);
        assert WrapFrom(current, words, measure, maxWidth) == WrapFrom(current + [w], words[1..], measure, maxWidth);
      }
    }
  }

  /** The drawn strings of wrapped lines: each line's `currentLine`,
      trimmed. */
  function LinesOf(lines: seq<seq<string>>): (r: seq<string>)
    ensures |r| == |lines|
    ensures forall i :: 0 <= i < |lines| ==> r[i] == Trim(Render(lines[i]))
  {
    seq(|lines|, i requires 0 <= i < |lines| => Trim(Render(lines[i])))
  }

  /** The wrapping loop of `createReviewTexture`, on the string
      `currentLine` as the source builds it. It produces the lines of the
      greedy wrap. */
  method WrapText(text: string, measure: string -> real, maxWidth: real) returns (lines: seq<string>)
    ensures lines == LinesOf(Wrap(Split(text), measure, maxWidth))
    ensures |lines| >= 1
  {
    var words := Split(text);
    lines := [];
    var currentLine := "";
    ghost var done: seq<seq<string>> := [];
    ghost var current: seq<string> := [];
    for k := 0 to |words|
      invariant currentLine == Render(current)
      invariant lines == LinesOf(done)
      invariant done + WrapFrom(current, words[k..], measure, maxWidth) == WrapFrom([], words, measure, maxWidth)
    {
      var word := words[k];
      var testLine := currentLine + word + " ";
      if measure(testLine) > maxWidth && currentLine != "" {
        BreakStep(done, current, words, k, measure, maxWidth);
        lines := lines + [Trim(currentLine)];
        currentLine := word + " ";
        done := done + [current];
        current := [word];
      } else {
        GrowStep(done, current, words, k, measure, maxWidth);
        currentLine := testLine;
        current := current + [word];
      }
    }
    FinalStep(done, current, words, measure, maxWidth);
    lines := lines + [Trim(currentLine)];
  }

  /** A turn of the loop that starts a new line. */
  lemma BreakStep(done: seq<seq<string>>, current: seq<string>, words: seq<string>, k: nat,
                  measure: string -> real, maxWidth: real)
    requires k < |words|
    requires measure(Render(current) + words[k] + " ") > maxWidth && Render(current) != ""
    ensures LinesOf(done + [current]) == LinesOf(done) + [Trim(Render(current))]
    ensures Render([words[k]]) == words[k] + " "
    ensures (done + [current]) + WrapFrom([words[k]], words[k + 1..], measure, maxWidth)
      == done + WrapFrom(current, words[k..], measure, maxWidth)
  {
    assert current != [];
    assert Breaks(current, words[k], measure, maxWidth);
    WrapStep(done, current, words, k, measure, maxWidth);
    assert [] + [words[k]] == [words[k]];
    RenderAppend([], words[k]);
    LinesOfSnoc(done, current);
  }

  /** A turn of the loop that adds the word to the current line. */
  lemma GrowStep(done: seq<seq<string>>, current: seq<string>, words: seq<string>, k: nat,
                 measure: string -> real, maxWidth: real)
    requires k < |words|
    requires !(measure(Render(current) + words[k] + " ") > maxWidth && Render(current) != "")
    ensures Render(current + [words[k]]) == Render(current) + words[k] + " "
    ensures done + WrapFrom(current + [words[k]], words[k + 1..], measure, maxWidth)
      == done + WrapFrom(current, words[k..], measure, maxWidth)
  {
    assert !Breaks(current, words[k], measure, maxWidth);
    WrapStep(done, current, words, k, measure, maxWidth);
    RenderAppend(current, words[k]);
  }

  /** After the last word, the current line is the last line. */
  lemma FinalStep(done: seq<seq<string>>, current: seq<string>, words: seq<string>,
                  measure: string -> real, maxWidth: real)
    requires done + WrapFrom(current, words[|words|..], measure, maxWidth) == WrapFrom([], words, measure, maxWidth)
    ensures LinesOf(done) + [Trim(Render(current))] == LinesOf(Wrap(words, measure, maxWidth))
  {
    assert words[|words|..] == [];
    LinesOfSnoc(done, current);
  }

  /** One turn of the wrapping loop, on the word groups. */
  lemma WrapStep(done: seq<seq<string>>, current: seq<string>, words: seq<string>, k: nat,
                 measure: string -> real, maxWidth: real)
    requires k < |words|
    ensures Breaks(current, words[k], measure, maxWidth) ==>
      done + WrapFrom(current, words[k..], measure, maxWidth)
        == (done + [current]) + WrapFrom([words[k]], words[k + 1..], measure, maxWidth)
    ensures !Breaks(current, words[k], measure, maxWidth) ==>
      done + WrapFrom(current, words[k..], measure, maxWidth)
        == done + WrapFrom(current + [words[k]], words[k + 1..], measure, maxWidth)
  {
    assert words[k..][1..] == words[k + 1..];
    WrapUnfold(current, words[k..], measure, maxWidth);
  }

  lemma WrapUnfold(current: seq<string>, words: seq<string>, measure: string -> real, maxWidth: real)
    requires |words| > 0
    ensures Breaks(current, words[0], measure, maxWidth) ==>
      WrapFrom(current, words, measure, maxWidth) == [current] + WrapFrom([words[0]], words[1..], measure, maxWidth)
    ensures !Breaks(current, words[0], measure, maxWidth) ==>
      WrapFrom(current, words, measure, maxWidth) == WrapFrom(current + [words[0]], words[1..], measure, maxWidth)
  {
  }

  lemma LinesOfSnoc(done: seq<seq<string>>, line: seq<string>)
    ensures LinesOf(done + [line]) == LinesOf(done) + [Trim(Render(line))]
  {
  }

  // ---------------------------------------------------------------------
  // Truncation to four lines

  /** `s.lastIndexOf(c)`: the last position of `c`, or -1. */
  function LastIndexOf(s: string, c: char): (r: int)
    ensures -1 <= r < |s|
    ensures r == -1 <==> c !in s
    ensures r >= 0 ==> s[r] == c && forall j :: r < j < |s| ==> s[j] != c
  {
    if |s| == 0 then -1
    else if s[|s| - 1] == c then |s| - 1
    else
      var r := LastIndexOf(s[..|s| - 1], c);
      assert c in s ==> c in s[..|s| - 1] by {
        if c in s {
          var i :| 0 <= i < |s| && s[i] == c;
          assert s[..|s| - 1][i] == c;
        }
      }
      r
  }

  /** `s.substring(start, end)`: both bounds clamped to `[0, |s|]` and
      swapped if they come out of order. */
  function Substring(s: string, start: int, end: int): (r: string)
    ensures var a := if start < 0 then 0 else if start > |s| then |s| else start;
      var b := if end < 0 then 0 else if end > |s| then |s| else end;
      r == (if a <= b then s[a..b] else s[b..a])
  {
    var a := if start < 0 then 0 else if start > |s| then |s| else start;
    var b := if end < 0 then 0 else if end > |s| then |s| else end;
    if a <= b then s[a..b] else s[b..a]
  }

  const Ellipsis: string := "..."

  /** The last drawn line when text is cut: everything before its last
      space, then `...`; a line without a space becomes just `...`. */
  function Ellipsize(line: string): (r: string)
    ensures |r| >= 3 && r[|r| - 3..] == Ellipsis
    ensures ' ' !in line ==> r == Ellipsis
    ensures ' ' in line ==> var k := LastIndexOf(line, ' ');
      r == line[..k] + Ellipsis && ' ' !in line[k + 1..]
    ensures ' ' in line ==> |r| <= |line| + 2
  {
    Substring(line, 0, LastIndexOf(line, ' ')) + Ellipsis
  }

  /** The lines actually drawn: the first four at most; when more than four
      were wrapped, the fourth is ellipsized. */
  function DrawnLines(lines: seq<string>): (r: seq<string>)
    ensures |r| == if |lines| < MaxLines then |lines| else MaxLines
    ensures |lines| <= MaxLines ==> r == lines
    ensures |lines| > MaxLines ==>
      r[..MaxLines - 1] == lines[..MaxLines - 1] && r[MaxLines - 1] == Ellipsize(lines[MaxLines - 1])
  {
    var maxLines := if |lines| < MaxLines then |lines| else MaxLines;
    seq(maxLines, i requires 0 <= i < maxLines =>
      if i == maxLines - 1 && |lines| > maxLines then Ellipsize(lines[i]) else lines[i])
  }

  /** The drawn lines of a review's text. */
  method ReviewLines(text: string, measure: string -> real) returns (drawn: seq<string>)
    ensures drawn == DrawnLines(LinesOf(Wrap(Split(text), measure, MaxWidth)))
    ensures 1 <= |drawn| <= MaxLines
  {
    var lines := WrapText(text, measure, MaxWidth);
    drawn := DrawnLines(lines);
  }

  /** Wrapping loses and reorders nothing: the words of the wrapped lines,
      joined with single spaces, are the review text. */
  lemma WrapKeepsText(text: string, measure: string -> real, maxWidth: real)
    ensures Join(Flatten(Wrap(Split(text), measure, maxWidth))) == text
    ensures forall i :: 0 <= i < |Wrap(Split(text), measure, maxWidth)| ==>
      Render(Wrap(Split(text), measure, maxWidth)[i]) == Join(Wrap(Split(text), measure, maxWidth)[i]) + " "
  {
    var lines := Wrap(Split(text), measure, maxWidth);
    forall i | 0 <= i < |lines|
      ensures Render(lines[i]) == Join(lines[i]) + " "
    {
      RenderIsJoin(lines[i]);
    }
  }

  // ---------------------------------------------------------------------
  // Star row

  /** The five stars: star `i` is filled when `i < rating`. */
  function StarRow(rating: real): (stars: seq<bool>)
    ensures |stars| == 5
    ensures forall i :: 0 <= i < 5 ==> (stars[i] <==> (i as real) < rating)
  {
    seq(5, i requires 0 <= i < 5 => (i as real) < rating)
  }

  function CountFilled(stars: seq<bool>): nat
  {
    if |stars| == 0 then 0 else (if stars[|stars| - 1] then 1 else 0) + CountFilled(stars[..|stars| - 1])
  }

  /** Filled stars come first: the row is some filled stars followed by
      empty ones. */
  lemma FilledFirst(rating: real, i: nat, j: nat)
    requires i <= j < 5
    ensures StarRow(rating)[j] ==> StarRow(rating)[i]
  {
  }

  /** A whole rating from 0 to 5 fills exactly that many stars; ratings
      above 4 fill all five and ratings of 0 or below none. */
  lemma StarCount(rating: real)
    ensures 0 <= rating.Floor <= 5 && rating == rating.Floor as real ==> CountFilled(StarRow(rating)) == rating.Floor
    ensures rating > 4.0 ==> CountFilled(StarRow(rating)) == 5
    ensures rating <= 0.0 ==> CountFilled(StarRow(rating)) == 0
  {
    var s := StarRow(rating);
    assert s[..4][..3] == s[..3] && s[..3][..2] == s[..2] && s[..2][..1] == s[..1] && s[..1][..0] == [];
    assert CountFilled(s[..1]) == (if s[0] then 1 else 0);
    assert CountFilled(s[..2]) == (if s[1] then 1 else 0) + CountFilled(s[..1]);
    assert CountFilled(s[..3]) == (if s[2] then 1 else 0) + CountFilled(s[..2]);
    assert CountFilled(s[..4]) == (if s[3] then 1 else 0) + CountFilled(s[..3]);
    assert CountFilled(s) == (if s[4] then 1 else 0) + CountFilled(s[..4]);
  }
}

=== FILE: carousel.dfy ===
/** The review carousel as a whole: the cards (`Media`) with their wrap
    offsets, the per-frame update of every card, and the event loop of
    `App` (pointer, wheel, debounce timer, resize, animation frame).

    The seamless loop rests on one invariant: every card's wrap offset
    `extra` is a whole number of track widths, so every card is always
    shown at its home slot modulo one full track. */
module Carousel {
  import opened Numeric
  import opened Options
  import opened Scroll
  import opened Track
  import opened Curve

  /** One `Media`: its review, its place in the track, its slot geometry,
      the wrap offset `extra`, the last frame's speed and side flags, and
      its pose on the arc. */
  datatype Card = Card(
    review: Review,
    index: nat,
    length: nat,
    slot: Slot,
    extra: real,
    speed: real,
    isBefore: bool,
    isAfter: bool,
    pose: Pose)

  /** The card's plane position for a scroll offset: its home slot, moved
      back by the scroll and forward by the wrap offset. */
  function PlaneX(c: Card, current: real): real
  {
    c.slot.x - current - c.extra
  }

  /** `k` full track widths. */
  function Laps(k: int, widthTotal: real): real
  {
    k as real * widthTotal
  }

  lemma LapsStep(k: int, w: real)
    ensures Laps(k - 1, w) == Laps(k, w) - w
    ensures Laps(k + 1, w) == Laps(k, w) + w
  {
    assert (k - 1) as real == k as real - 1.0;
    assert (k + 1) as real == k as real + 1.0;
  }

  /** The wrap offset is a whole number of track widths. */
  ghost predicate OnLattice(c: Card)
  {
    exists k: int :: c.extra == Laps(k, c.slot.widthTotal)
  }

  /** The card's right edge is left of the viewport's left edge. */
  predicate PastLeft(c: Card, current: real, viewport: Size)
  {
    PlaneX(c, current) + c.slot.scaleX / 2.0 < -(viewport.width / 2.0)
  }

  /** The card's left edge is right of the viewport's right edge. */
  predicate PastRight(c: Card, current: real, viewport: Size)
  {
    PlaneX(c, current) - c.slot.scaleX / 2.0 > viewport.width / 2.0
  }

  /** `Media.update` for one card, given the scroll offset after this
      frame's tick, the offset of the previous frame and the direction of
      travel. A card that has left the viewport on the trailing side is
      moved one full track ahead (and vice versa), and its flags cleared. */
  function UpdateCard(c: Card, current: real, last: real, direction: Direction,
                      viewport: Size, bend: real, sqrt: real -> real, asin: real -> real): (r: Card)
    ensures r.pose == CurvePose(PlaneX(c, current), bend, viewport.width / 2.0, sqrt, asin)
    ensures r.speed == current - last
    ensures r.review == c.review && r.index == c.index && r.length == c.length && r.slot == c.slot
    ensures direction == Right && PastLeft(c, current, viewport) ==>
      r.extra == c.extra - c.slot.widthTotal && !r.isBefore && !r.isAfter
    ensures direction == Left && PastRight(c, current, viewport) ==>
      r.extra == c.extra + c.slot.widthTotal && !r.isBefore && !r.isAfter
    ensures !(direction == Right && PastLeft(c, current, viewport)) && !(direction == Left && PastRight(c, current, viewport)) ==>
      r.extra == c.extra && r.isBefore == PastLeft(c, current, viewport) && r.isAfter == PastRight(c, current, viewport)
  {
    var x := PlaneX(c, current);
    var pose := CurvePose(x, bend, viewport.width / 2.0, sqrt, asin);
    var planeOffset := c.slot.scaleX / 2.0;
    var viewportOffset := viewport.width / 2.0;
    var isBefore := x + planeOffset < -viewportOffset;
    var isAfter := x - planeOffset > viewportOffset;
    var moved := c.(pose := pose, speed := current - last, isBefore := isBefore, isAfter := isAfter);
    if direction == Right && isBefore then
      moved.(extra := c.extra - c.slot.widthTotal, isBefore := false, isAfter := false)
    else if direction == Left && isAfter then
      moved.(extra := c.extra + c.slot.widthTotal, isBefore := false, isAfter := false)
    else moved
  }

  /** A card wraps exactly when it has left the viewport on the side the
      strip is moving away from: forwards when moving right and past the
      left edge, backwards when moving left and past the right edge. */
  lemma WrapCondition(c: Card, current: real, last: real, direction: Direction,
                      viewport: Size, bend: real, sqrt: real -> real, asin: real -> real)
    requires c.slot.widthTotal > 0.0
    ensures var r := UpdateCard(c, current, last, direction, viewport, bend, sqrt, asin);
      var x := PlaneX(c, current);
      && (r.extra < c.extra <==> direction == Right && PastLeft(c, current, viewport))
      && (r.extra > c.extra <==> direction == Left && PastRight(c, current, viewport))
      && (r.extra < c.extra ==> PlaneX(r, current) == x + c.slot.widthTotal)
      && (r.extra > c.extra ==> PlaneX(r, current) == x - c.slot.widthTotal)
  {
  }

  /** With a non-negative plane and viewport width a card is never on both
      sides of the viewport at once. */
  lemma NeverBothSides(c: Card, current: real, last: real, direction: Direction,
                       viewport: Size, bend: real, sqrt: real -> real, asin: real -> real)
    requires c.slot.scaleX >= 0.0 && viewport.width >= 0.0
    ensures var r := UpdateCard(c, current, last, direction, viewport, bend, sqrt, asin);
      !(r.isBefore && r.isAfter)
  {
  }

  /** Wrapping moves a card by exactly one track width, so it stays on the
      lattice. */
  lemma {:induction false} UpdateKeepsLattice(c: Card, current: real, last: real, direction: Direction,
                                              viewport: Size, bend: real, sqrt: real -> real, asin: real -> real)
    requires OnLattice(c)
    ensures OnLattice(UpdateCard(c, current, last, direction, viewport, bend, sqrt, asin))
  {
    var r := UpdateCard(c, current, last, direction, viewport, bend, sqrt, asin);
    var w := c.slot.widthTotal;
    var k :| c.extra == Laps(k, w);
    LapsStep(k, w);
    if r.extra == c.extra - w {
      assert r.extra == Laps(k - 1, w);
    } else if r.extra == c.extra + w {
      assert r.extra == Laps(k + 1, w);
    } else {
      assert r.extra == Laps(k, w);
    }
  }

  /** A card as the `Media` constructor leaves it: slot laid out, not yet
      wrapped, at rest, flat at the origin. */
  function NewCard(review: Review, index: nat, length: nat, screen: Size, viewport: Size): (c: Card)
    requires screen.width > 0.0 && screen.height > 0.0
    ensures c.review == review && c.index == index && c.length == length
    ensures c.slot == SlotLayout(screen, viewport, index, length)
    ensures c.extra == 0.0 && c.speed == 0.0 && !c.isBefore && !c.isAfter
    ensures OnLattice(c)
  {
    var c := Card(review, index, length, SlotLayout(screen, viewport, index, length),
                  0.0, 0.0, false, false, Pose(0.0, 0.0, 0.0));
    assert c.extra == Laps(0, c.slot.widthTotal);
    c
  }

  /** The whole carousel: scroll state, cards, the sizes they were laid out
      for, and the bend of the arc. */
  datatype App = App(scroll: ScrollState, cards: seq<Card>, screen: Size, viewport: Size, bend: real)

  /** `createMedias`: one card per entry of the doubled track, each told its
      index and the track length. */
  function CreateCards(reviews: Option<seq<Review>>, screen: Size, viewport: Size): (cards: seq<Card>)
    requires screen.width > 0.0 && screen.height > 0.0
    ensures |cards| == |BuildTrack(reviews)|
    ensures forall i :: 0 <= i < |cards| ==>
      cards[i] == NewCard(BuildTrack(reviews)[i], i, |cards|, screen, viewport)
  {
    var track := BuildTrack(reviews);
    seq(|track|, i requires 0 <= i < |track| => NewCard(track[i], i, |track|, screen, viewport))
  }

  /** The slot width `onCheck` aligns to: the first card's, if any. */
  function FirstWidth(cards: seq<Card>): (w: Option<real>)
    ensures |cards| == 0 <==> w.None?
    ensures |cards| > 0 ==> w == Some(cards[0].slot.width)
  {
    if |cards| == 0 then None else Some(cards[0].slot.width)
  }

  /** The invariant of a mounted carousel: positive sizes, the viewport
      derived from the container through the camera, a non-empty track
      whose cards are numbered in order, laid out for the current sizes,
      and each on the lattice. */
  ghost predicate Valid(c: App)
  {
    && c.screen.width > 0.0 && c.screen.height > 0.0
    && c.viewport.height > 0.0
    && c.viewport == ViewportFor(c.screen, c.viewport.height)
    && |c.cards| >= 2
    && forall i :: 0 <= i < |c.cards| ==>
      && c.cards[i].index == i
      && c.cards[i].length == |c.cards|
      && c.cards[i].slot == SlotLayout(c.screen, c.viewport, i, |c.cards|)
      && OnLattice(c.cards[i])
  }

  /** In a valid carousel every slot, and so the track, has positive width. */
  lemma ValidWidths(c: App)
    requires Valid(c)
    ensures FirstWidth(c.cards).Some? && FirstWidth(c.cards).value >= Padding
    ensures forall i :: 0 <= i < |c.cards| ==> c.cards[i].slot.widthTotal > 0.0
  {
    forall i | 0 <= i < |c.cards|
      ensures c.cards[i].slot.widthTotal > 0.0
    {
      var s := c.cards[i].slot;
      assert s.width >= Padding;
      assert |c.cards| as real >= 2.0;
      MulMonotone(1.0, |c.cards| as real, s.width);
    }
  }

  /** `update`: tick the scroll, update every card with the new offset, the
      previous frame's offset and the direction, then record the offset. */
  function Frame(c: App, sqrt: real -> real, asin: real -> real): (r: App)
    ensures r.scroll == Tick(c.scroll).state
    ensures |r.cards| == |c.cards|
    ensures forall i :: 0 <= i < |c.cards| ==>
      r.cards[i] == UpdateCard(c.cards[i], r.scroll.current, c.scroll.last,
                               Tick(c.scroll).direction, c.viewport, c.bend, sqrt, asin)
    ensures r.screen == c.screen && r.viewport == c.viewport && r.bend == c.bend
  {
    var t := Tick(c.scroll);
    var cards := seq(|c.cards|, i requires 0 <= i < |c.cards| =>
      UpdateCard(c.cards[i], t.state.current, c.scroll.last, t.direction, c.viewport, c.bend, sqrt, asin));
    c.(scroll := t.state, cards := cards)
  }

  lemma FrameKeepsValid(c: App, sqrt: real -> real, asin: real -> real)
    requires Valid(c)
    ensures Valid(Frame(c, sqrt, asin))
  {
    var r := Frame(c, sqrt, asin);
    var t := Tick(c.scroll);
    forall i | 0 <= i < |r.cards|
      ensures OnLattice(r.cards[i])
    {
      UpdateKeepsLattice(c.cards[i], t.state.current, c.scroll.last, t.direction, c.viewport, c.bend, sqrt, asin);
    }
  }

  /** `Media.onResize`: the slot is laid out again for the new sizes; the
      wrap offset `extra` is kept as it was. */
  function ResizeCard(c: Card, screen: Size, viewport: Size): (r: Card)
    requires screen.width > 0.0 && screen.height > 0.0
    ensures r.slot == SlotLayout(screen, viewport, c.index, c.length)
    ensures r.extra == c.extra
    ensures r == c.(slot := r.slot)
  {
    c.(slot := SlotLayout(screen, viewport, c.index, c.length))
  }

  /** A card laid out for one container and resized to another through the
      same camera is left exactly as it was: its slot does not depend on the
      container, so the kept `extra` is still whole track widths. */
  lemma ResizeLeavesCard(c: Card, s1: Size, s2: Size, viewHeight: real)
    requires s1.width > 0.0 && s1.height > 0.0
    requires s2.width > 0.0 && s2.height > 0.0
    requires c.slot == SlotLayout(s1, ViewportFor(s1, viewHeight), c.index, c.length)
    ensures ResizeCard(c, s2, ViewportFor(s2, viewHeight)) == c
    ensures OnLattice(c) ==> OnLattice(ResizeCard(c, s2, ViewportFor(s2, viewHeight)))
  {
    SlotSameForAnyScreen(s1, s2, viewHeight, c.index, c.length);
  }

  /** `App.onResize`: record the container's new size, derive the viewport
      through the camera, and resize every card. */
  function Resize(c: App, screen: Size): (r: App)
    requires screen.width > 0.0 && screen.height > 0.0
    ensures r.scroll == c.scroll && r.bend == c.bend
    ensures r.screen == screen && r.viewport == ViewportFor(screen, c.viewport.height)
    ensures |r.cards| == |c.cards|
    ensures forall i :: 0 <= i < |c.cards| ==> r.cards[i] == ResizeCard(c.cards[i], screen, r.viewport)
  {
    var viewport := ViewportFor(screen, c.viewport.height);
    var cards := seq(|c.cards|, i requires 0 <= i < |c.cards| => ResizeCard(c.cards[i], screen, viewport));
    c.(cards := cards, screen := screen, viewport := viewport)
  }

  /** A resize of a valid carousel keeps it valid, and leaves every card
      (slot and wrap offset alike) unchanged. */
  lemma ResizeKeepsValid(c: App, screen: Size)
    requires Valid(c)
    requires screen.width > 0.0 && screen.height > 0.0
    ensures Resize(c, screen).cards == c.cards
    ensures Valid(Resize(c, screen))
  {
    var r := Resize(c, screen);
    forall i | 0 <= i < |r.cards|
      ensures r.cards[i] == c.cards[i]
    {
      ResizeLeavesCard(c.cards[i], c.screen, screen, c.viewport.height);
    }
  }

  /** The inputs the carousel reacts to. A resize carries the container's
      new pixel size. */
  datatype Event =
    | MouseDown(x: real)
    | MouseMove(x: real)
    | MouseUp
    | WheelEvent(deltaY: real)
    | DebounceTimer
    | WindowResize(newScreen: Size)
    | AnimationFrame

  /** Resize events carry positive sizes. */
  predicate WellFormed(e: Event)
  {
    e.WindowResize? ==> e.newScreen.width > 0.0 && e.newScreen.height > 0.0
  }

  /** One event handled by `App`. Only the animation frame touches the
      cards: the pointer, wheel and timer handlers change the scroll state,
      and a resize re-lays out every card to the slot it already had. */
  function Step(c: App, e: Event, sqrt: real -> real, asin: real -> real): (r: App)
    requires Valid(c) && WellFormed(e)
    ensures Valid(r)
    ensures |r.cards| == |c.cards|
    ensures !e.AnimationFrame? ==> r.cards == c.cards
    ensures r.viewport.height == c.viewport.height
    ensures e.MouseDown? ==> r.scroll == PointerDown(c.scroll, e.x)
    ensures e.MouseMove? ==> r.scroll == PointerMove(c.scroll, e.x)
    ensures e.MouseUp? ==> r.scroll == PointerUp(c.scroll, FirstWidth(c.cards))
    ensures e.WheelEvent? ==> r.scroll == Wheel(c.scroll, e.deltaY)
    ensures e.DebounceTimer? ==> r.scroll == DebounceFire(c.scroll, FirstWidth(c.cards))
    ensures e.WindowResize? ==> r == Resize(c, e.newScreen)
    ensures e.AnimationFrame? ==> r == Frame(c, sqrt, asin)
  {
    ValidWidths(c);
    match e
    case MouseDown(x) => c.(scroll := PointerDown(c.scroll, x))
    case MouseMove(x) => c.(scroll := PointerMove(c.scroll, x))
    case MouseUp => c.(scroll := PointerUp(c.scroll, FirstWidth(c.cards)))
    case WheelEvent(dy) => c.(scroll := Wheel(c.scroll, dy))
    case DebounceTimer => c.(scroll := DebounceFire(c.scroll, FirstWidth(c.cards)))
    case WindowResize(screen) =>
      ResizeKeepsValid(c, screen);
      Resize(c, screen)
    case AnimationFrame =>
      FrameKeepsValid(c, sqrt, asin);
      Frame(c, sqrt, asin)
  }

  /** The carousel after `new App(...)`: the viewport derived from the
      container through the camera, cards created for those sizes, scroll at
      rest, and the first frame drawn. `viewHeight` is the camera's
      world-space viewport height. */
  function Mount(reviews: Option<seq<Review>>, screen: Size, viewHeight: real, bend: real,
                 sqrt: real -> real, asin: real -> real): (c: App)
    requires screen.width > 0.0 && screen.height > 0.0
    requires viewHeight > 0.0
    ensures Valid(c)
    ensures c.viewport == ViewportFor(screen, viewHeight)
    ensures |c.cards| == 2 * |ReviewsToUse(reviews)|
    ensures c.scroll.current == 0.0 && c.scroll.target == 0.0
  {
    var viewport := ViewportFor(screen, viewHeight);
    var initial := App(Initial(), CreateCards(reviews, screen, viewport), screen, viewport, bend);
    assert Valid(initial);
    FrameKeepsValid(initial, sqrt, asin);
    Frame(initial, sqrt, asin)
  }

  /** A run of events from a valid carousel. */
  function Run(c: App, events: seq<Event>, sqrt: real -> real, asin: real -> real): (r: App)
    requires Valid(c)
    requires forall i :: 0 <= i < |events| ==> WellFormed(events[i])
    ensures Valid(r)
    ensures |r.cards| == |c.cards|
    ensures r.viewport.height == c.viewport.height
    decreases |events|
  {
    if |events| == 0 then c
    else Run(Step(c, events[0], sqrt, asin), events[1..], sqrt, asin)
  }

  /** Whatever events arrive, every card of a mounted carousel keeps a wrap
      offset of whole track widths, laid out for the latest container seen
      through the camera: the loop never opens a gap or overlaps two cards. */
  lemma SeamlessAfterAnyRun(reviews: Option<seq<Review>>, screen: Size, viewHeight: real, bend: real,
                            events: seq<Event>, sqrt: real -> real, asin: real -> real)
    requires screen.width > 0.0 && screen.height > 0.0
    requires viewHeight > 0.0
    requires forall i :: 0 <= i < |events| ==> WellFormed(events[i])
    ensures var r := Run(Mount(reviews, screen, viewHeight, bend, sqrt, asin), events, sqrt, asin);
      && |r.cards| == 2 * |ReviewsToUse(reviews)|
      && r.viewport == ViewportFor(r.screen, viewHeight)
      && forall i :: 0 <= i < |r.cards| ==>
        && r.cards[i].slot == SlotLayout(r.screen, r.viewport, i, |r.cards|)
        && exists k: int :: r.cards[i].extra == Laps(k, r.cards[i].slot.widthTotal)
  {
    var m := Mount(reviews, screen, viewHeight, bend, sqrt, asin);
    var r := Run(m, events, sqrt, asin);
    assert Valid(r);
    forall i | 0 <= i < |r.cards|
      ensures exists k: int :: r.cards[i].extra == Laps(k, r.cards[i].slot.widthTotal)
    {
      assert OnLattice(r.cards[i]);
    }
  }
}

=== FILE: curve.dfy ===
/** The arc geometry of `Media.update`: each card sits on a circle through
    the two viewport edges whose sagitta at the edges is `|bend|`. The
    square root and arcsine are the host's `Math.sqrt` and `Math.asin`,
    passed in as functions; only the facts that make them well defined and
    fix the signs are proved. */
module Curve {
  import opened Numeric

  /** A card's plane position and z-rotation. */
  datatype Pose = Pose(x: real, y: real, rotation: real)

  /** `sqrt` is a square root on the non-negative reals. */
  ghost predicate IsSqrt(sqrt: real -> real)
  {
    forall v: real :: 0.0 <= v ==> 0.0 <= sqrt(v) && sqrt(v) * sqrt(v) == v
  }

  /** `asin` is non-negative on `[0, 1]`. */
  ghost predicate AsinNonNegative(asin: real -> real)
  {
    forall v: real :: 0.0 <= v <= 1.0 ==> asin(v) >= 0.0
  }

  /** `R = (H^2 + B^2) / (2B)`: the radius of the circle through
      `(-H, 0)`, `(H, 0)` and the apex `B` above them. */
  function Radius(halfWidth: real, bend: real): (r: real)
    requires bend != 0.0
    ensures r > 0.0
    ensures r >= halfWidth && r >= -halfWidth
  {
    var b := Abs(bend);
    RadiusFacts(halfWidth, b);
    (halfWidth * halfWidth + b * b) / (2.0 * b)
  }

  /** `(H - B)^2 >= 0` and `(H + B)^2 >= 0`, divided by `2B`. */
  lemma RadiusFacts(h: real, b: real)
    requires b > 0.0
    ensures (h * h + b * b) / (2.0 * b) > 0.0
    ensures (h * h + b * b) / (2.0 * b) >= h
    ensures (h * h + b * b) / (2.0 * b) >= -h
  {
    RadiusPositive(h, b);
    SquareSum(h, b);
    DivideBound(h * h + b * b, 2.0 * b, h);
    DivideBound(h * h + b * b, 2.0 * b, -h);
  }

  lemma RadiusPositive(h: real, b: real)
    requires b > 0.0
    ensures (h * h + b * b) / (2.0 * b) > 0.0
  {
    SquaresPositive(h, b);
    var n := h * h + b * b;
    assert n > 0.0;
    var q := n / (2.0 * b);
    assert q * (2.0 * b) == n;
    assert q * (2.0 * b) > 0.0;
    ProductPositive(q, 2.0 * b);
  }

  lemma SquaresPositive(h: real, b: real)
    requires b > 0.0
    ensures h * h + b * b > 0.0
  {
    assert b * b > 0.0;
  }

  lemma SquareSum(h: real, b: real)
    requires b > 0.0
    ensures h * h + b * b >= (2.0 * b) * h
    ensures h * h + b * b >= (2.0 * b) * -h
  {
    var m := h - b;
    var p := h + b;
    assert m * m >= 0.0;
    assert p * p >= 0.0;
    assert m * m == h * h - 2.0 * b * h + b * b;
    assert p * p == h * h + 2.0 * b * h + b * b;
  }

  lemma DivideBound(n: real, d: real, lo: real)
    requires d > 0.0 && n >= d * lo
    ensures n / d >= lo
  {
    var q := n / d;
    assert q * d == n;
    assert (q - lo) * d >= 0.0;
  }

  /** `Math.min(Math.abs(x), H)`: the horizontal distance from the centre,
      clamped to the half width. */
  function EffectiveX(x: real, halfWidth: real): (e: real)
    ensures e <= Abs(x) && e <= halfWidth
    ensures halfWidth >= 0.0 ==> 0.0 <= e
    ensures e == Abs(x) || e == halfWidth
  {
    Min(Abs(x), halfWidth)
  }

  /** The argument passed to `Math.sqrt` is never negative and the one
      passed to `Math.asin` lies in `[0, 1]`: `effectiveX <= H <= R`. */
  lemma CurveDomain(x: real, bend: real, halfWidth: real)
    requires bend != 0.0 && halfWidth >= 0.0
    ensures var r := Radius(halfWidth, bend); var e := EffectiveX(x, halfWidth);
      && 0.0 <= e <= halfWidth <= r
      && r * r - e * e >= 0.0
      && 0.0 <= e / r <= 1.0
  {
    var r := Radius(halfWidth, bend);
    var e := EffectiveX(x, halfWidth);
    SquareMonotone(e, r);
    DivideUnit(e, r);
  }

  lemma DivideUnit(n: real, d: real)
    requires 0.0 <= n <= d && d > 0.0
    ensures 0.0 <= n / d <= 1.0
  {
    var q := n / d;
    assert q * d == n;
  }

  /** The sagitta `R - sqrt(R^2 - e^2)` of a circle of radius `R` at
      horizontal distance `e` from its apex. */
  function SagittaAt(r: real, e: real, sqrt: real -> real): real
  {
    r - sqrt(r * r - e * e)
  }

  /** The `arc` of a card at plane position `x`. */
  function Sagitta(x: real, bend: real, halfWidth: real, sqrt: real -> real): real
    requires bend != 0.0
  {
    SagittaAt(Radius(halfWidth, bend), EffectiveX(x, halfWidth), sqrt)
  }

  /** The pose of a card at plane position `x`. With no bend the card lies
      flat on the axis; otherwise it is lifted (`bend < 0`) or lowered
      (`bend > 0`) by the sagitta and turned by the arc's angle, with the
      rotation's sign following the side of the centre it is on. */
  function CurvePose(x: real, bend: real, halfWidth: real, sqrt: real -> real, asin: real -> real): (p: Pose)
    ensures p.x == x
    ensures bend == 0.0 ==> p.y == 0.0 && p.rotation == 0.0
    ensures bend != 0.0 ==> Abs(p.y) == Abs(Sagitta(x, bend, halfWidth, sqrt))
    ensures x == 0.0 ==> p.rotation == 0.0
  {
    if bend == 0.0 then Pose(x, 0.0, 0.0)
    else
      var r := Radius(halfWidth, bend);
      var e := EffectiveX(x, halfWidth);
      var arc := Sagitta(x, bend, halfWidth, sqrt);
      if bend > 0.0 then Pose(x, -arc, -Sign(x) * asin(e / r))
      else Pose(x, arc, Sign(x) * asin(e / r))
  }

  /** For a genuine square root the sagitta lies in `[0, R]`; hence a
      positive bend only ever lowers a card and a negative one only lifts
      it, by at most the radius, and the centre card is not displaced. */
  lemma CurveSign(x: real, bend: real, halfWidth: real, sqrt: real -> real, asin: real -> real)
    requires IsSqrt(sqrt)
    requires bend != 0.0 && halfWidth >= 0.0
    ensures 0.0 <= Sagitta(x, bend, halfWidth, sqrt) <= Radius(halfWidth, bend)
    ensures bend > 0.0 ==> CurvePose(x, bend, halfWidth, sqrt, asin).y <= 0.0
    ensures bend < 0.0 ==> CurvePose(x, bend, halfWidth, sqrt, asin).y >= 0.0
    ensures x == 0.0 ==> CurvePose(x, bend, halfWidth, sqrt, asin).y == 0.0
  {
    CurveDomain(x, bend, halfWidth);
    SagittaAtRange(Radius(halfWidth, bend), EffectiveX(x, halfWidth), sqrt);
  }

  /** For `0 <= e <= R`, the sagitta lies in `[0, R]` and vanishes at the
      apex. */
  lemma SagittaAtRange(r: real, e: real, sqrt: real -> real)
    requires IsSqrt(sqrt)
    requires r > 0.0 && 0.0 <= e <= r
    ensures 0.0 <= SagittaAt(r, e, sqrt) <= r
    ensures e == 0.0 ==> SagittaAt(r, e, sqrt) == 0.0
  {
    var v := r * r - e * e;
    SquareMonotone(e, r);
    var root := sqrt(v);
    assert 0.0 <= root && root * root == v;
    RootBelow(root, r, v);
    if e == 0.0 {
      RootOfSquare(root, r);
    }
  }

  lemma RootBelow(root: real, r: real, v: real)
    requires 0.0 <= root && root * root == v && r > 0.0 && v <= r * r
    ensures root <= r
  {
    assert (r - root) * (r + root) == r * r - v;
    ProductSign(r - root, r + root);
  }

  lemma RootOfSquare(root: real, r: real)
    requires 0.0 <= root && root * root == r * r && r > 0.0
    ensures root == r
  {
    assert (r - root) * (r + root) == 0.0;
    ProductSign(r - root, r + root);
    ProductSign(root - r, r + root);
  }

  /** With an arcsine that is non-negative on `[0, 1]`, a positive bend
      turns cards right of centre clockwise (negative angle) and cards left
      of centre counter-clockwise; a negative bend does the opposite. */
  lemma RotationSign(x: real, bend: real, halfWidth: real, sqrt: real -> real, asin: real -> real)
    requires AsinNonNegative(asin)
    requires bend != 0.0 && halfWidth >= 0.0
    ensures bend > 0.0 && x > 0.0 ==> CurvePose(x, bend, halfWidth, sqrt, asin).rotation <= 0.0
    ensures bend > 0.0 && x < 0.0 ==> CurvePose(x, bend, halfWidth, sqrt, asin).rotation >= 0.0
    ensures bend < 0.0 && x > 0.0 ==> CurvePose(x, bend, halfWidth, sqrt, asin).rotation >= 0.0
    ensures bend < 0.0 && x < 0.0 ==> CurvePose(x, bend, halfWidth, sqrt, asin).rotation <= 0.0
  {
    CurveDomain(x, bend, halfWidth);
    var r := Radius(halfWidth, bend);
    var e := EffectiveX(x, halfWidth);
    assert asin(e / r) >= 0.0;
  }

  /** The curve is symmetric about the centre: mirrored cards sit at the
      same height with opposite rotations. */
  lemma CurveSymmetric(x: real, bend: real, halfWidth: real, sqrt: real -> real, asin: real -> real)
    ensures CurvePose(-x, bend, halfWidth, sqrt, asin).y == CurvePose(x, bend, halfWidth, sqrt, asin).y
    ensures CurvePose(-x, bend, halfWidth, sqrt, asin).rotation == -CurvePose(x, bend, halfWidth, sqrt, asin).rotation
  {
    assert Abs(-x) == Abs(x);
    assert EffectiveX(-x, halfWidth) == EffectiveX(x, halfWidth);
    assert Sign(-x) == -Sign(x);
    if bend != 0.0 {
      assert Sagitta(-x, bend, halfWidth, sqrt) == Sagitta(x, bend, halfWidth, sqrt);
    }
  }
}

=== FILE: gallery.dfy ===
/** The showcase gallery around the masonry layout: the media-query hook
    that picks the column count and the phone flag, the size hook with its
    five-pixel hysteresis, the "show more" pagination on phones, and the
    flip of one card at a time with its click-outside dismissal. */
module Gallery {
  import opened Numeric
  import opened Options
  import opened Masonry

  /** `queries.findIndex(q => matchMedia(q).matches)`: the first matching
      query, or -1 when none matches. */
  function FindIndex(queries: seq<string>, matches: string -> bool): (r: int)
    ensures -1 <= r < |queries|
    ensures r == -1 <==> forall j :: 0 <= j < |queries| ==> !matches(queries[j])
    ensures r >= 0 ==> matches(queries[r]) && forall j :: 0 <= j < r ==> !matches(queries[j])
  {
    if |queries| == 0 then -1
    else if matches(queries[0]) then 0
    else
      var r := FindIndex(queries[1..], matches);
      assert forall j :: 1 <= j < |queries| ==> queries[1..][j - 1] == queries[j];
      if r == -1 then -1 else r + 1
  }

  /** `values[index] ?? defaultValue`: the value paired with the first
      matching query, or the default when no query matches or the index has
      no value. */
  function MediaValue(queries: seq<string>, values: seq<int>, defaultValue: int, matches: string -> bool): (r: int)
    ensures r == defaultValue || r in values
    ensures (forall j :: 0 <= j < |queries| ==> !matches(queries[j])) ==> r == defaultValue
    ensures forall k :: 0 <= k < |queries| && k < |values| && matches(queries[k]) ==>
      (forall j :: 0 <= j < k ==> !matches(queries[j])) ==> r == values[k]
    ensures FindIndex(queries, matches) >= |values| ==> r == defaultValue
  {
    var k := FindIndex(queries, matches);
    if 0 <= k < |values| then values[k] else defaultValue
  }

  const MinWidth1500: string := "(min-width:1500px)"
  const MinWidth1000: string := "(min-width:1000px)"
  const MinWidth768: string := "(min-width:768px)"
  const MinWidth400: string := "(min-width:400px)"
  const MaxWidth767: string := "(max-width: 767px)"

  const ColumnQueries: seq<string> := [MinWidth1500, MinWidth1000, MinWidth768, MinWidth400]
  const ColumnValues: seq<int> := [5, 4, 3, 2]

  /** The column count: five, four, three or two columns from the widest
      breakpoint down, one below all of them. */
  function Columns(matches: string -> bool): (c: nat)
    ensures 1 <= c <= 5
  {
    var v := MediaValue(ColumnQueries, ColumnValues, 1, matches);
    assert v in ColumnValues || v == 1;
    v
  }

  /** `useMedia(["(max-width: 767px)"], [1], 0) === 1` */
  predicate IsMobile(matches: string -> bool)
  {
    MediaValue([MaxWidth767], [1], 0, matches) == 1
  }

  /** How a viewport `width` pixels wide answers the five queries the
      gallery asks. */
  function ViewportMatches(width: real): string -> bool
  {
    q =>
      if q == MinWidth1500 then width >= 1500.0
      else if q == MinWidth1000 then width >= 1000.0
      else if q == MinWidth768 then width >= 768.0
      else if q == MinWidth400 then width >= 400.0
      else if q == MaxWidth767 then width <= 767.0
      else false
  }

  /** The breakpoints as a viewport meets them: the column count is the
      number of the four thresholds the width reaches, plus one, and the
      phone layout is exactly the one for widths up to 767 pixels. */
  lemma ColumnsForWidth(width: real)
    ensures Columns(ViewportMatches(width))
      == if width >= 1500.0 then 5
         else if width >= 1000.0 then 4
         else if width >= 768.0 then 3
         else if width >= 400.0 then 2
         else 1
    ensures IsMobile(ViewportMatches(width)) <==> width <= 767.0
  {
    var m := ViewportMatches(width);
    assert m(MinWidth1500) == (width >= 1500.0);
    assert m(MinWidth1000) == (width >= 1000.0);
    assert m(MinWidth768) == (width >= 768.0);
    assert m(MinWidth400) == (width >= 400.0);
    assert m(MaxWidth767) == (width <= 767.0);
    var k := FindIndex(ColumnQueries, m);
    assert ColumnQueries[0] == MinWidth1500 && ColumnQueries[1] == MinWidth1000;
    assert ColumnQueries[2] == MinWidth768 && ColumnQueries[3] == MinWidth400;
    if width >= 1500.0 {
      assert k == 0;
    } else if width >= 1000.0 {
      assert k == 1;
    } else if width >= 768.0 {
      assert k == 2;
    } else if width >= 400.0 {
      assert k == 3;
    } else {
      assert k == -1;
    }
  }

  /** A wider viewport never has fewer columns, and a phone layout never has
      more than two. */
  lemma ColumnsMonotone(narrow: real, wide: real)
    requires narrow <= wide
    ensures Columns(ViewportMatches(narrow)) <= Columns(ViewportMatches(wide))
    ensures IsMobile(ViewportMatches(narrow)) ==> Columns(ViewportMatches(narrow)) <= 2
  {
    ColumnsForWidth(narrow);
    ColumnsForWidth(wide);
  }

  /** A measured content box. */
  datatype Rect = Rect(width: real, height: real)

  /** The stored size changes only when the new measurement differs from it
      by more than five pixels in some dimension, and then both dimensions
      are replaced. */
  const Hysteresis: real := 5.0

  function Measure(prev: Rect, width: real, height: real): (r: Rect)
    ensures r == prev || r == Rect(width, height)
  {
    if Abs(prev.width - width) > Hysteresis || Abs(prev.height - height) > Hysteresis
    then Rect(width, height)
    else prev
  }

  /** After a measurement the stored size is within five pixels of it in
      both dimensions; it moves exactly when the measurement strays further
      than that; and measuring the same box again changes nothing. */
  lemma MeasureTracks(prev: Rect, width: real, height: real)
    ensures Abs(Measure(prev, width, height).width - width) <= Hysteresis
    ensures Abs(Measure(prev, width, height).height - height) <= Hysteresis
    ensures Measure(prev, width, height) != prev
        <==> (Abs(prev.width - width) > Hysteresis || Abs(prev.height - height) > Hysteresis)
    ensures Measure(Measure(prev, width, height), width, height) == Measure(prev, width, height)
  {
  }

  /** The page size of the phone pagination. */
  const PageSize: nat := 6

  /** `visibleItems` after the phone flag changes: everything on wider
      screens, one page on phones. */
  function VisibleOnModeChange(isMobile: bool, total: nat): (v: nat)
    ensures !isMobile ==> v == total
    ensures isMobile ==> v == PageSize
  {
    if isMobile then PageSize else total
  }

  /** `isMobile ? items.slice(0, visibleItems) : items` */
  function Displayed<T>(items: seq<T>, isMobile: bool, visible: nat): (d: seq<T>)
    ensures !isMobile ==> d == items
    ensures isMobile ==> |d| == MinNat(visible, |items|) && d == items[..|d|]
  {
    if isMobile then items[..MinNat(visible, |items|)] else items
  }

  /** `Math.min(visibleItems + 6, items.length)` */
  function ShowMore(visible: nat, total: nat): (v: nat)
    ensures v <= total
    ensures visible < total ==> visible < v
    ensures visible <= total ==> visible <= v && v - visible <= PageSize
  {
    MinNat(visible + PageSize, total)
  }

  /** The "show more" button is rendered exactly when a phone shows fewer
      than all items. */
  predicate ShowMoreButton(isMobile: bool, visible: nat, total: nat)
  {
    isMobile && visible < total
  }

  /** Once the button is gone, a phone shows every item. */
  lemma NoButtonShowsAll<T>(items: seq<T>, isMobile: bool, visible: nat)
    requires !ShowMoreButton(isMobile, visible, |items|)
    ensures Displayed(items, isMobile, visible) == items
  {
  }

  /** Pressing "show more" `presses` times. */
  function PressShowMore(visible: nat, total: nat, presses: nat): nat
    decreases presses
  {
    if presses == 0 then visible else PressShowMore(ShowMore(visible, total), total, presses - 1)
  }

  /** Each press reveals another page until the list runs out: `k` presses
      show `min(visible + 6k, total)` items. */
  lemma {:induction false} PressesReveal(visible: nat, total: nat, presses: nat)
    requires visible <= total
    ensures PressShowMore(visible, total, presses) == MinNat(visible + presses * PageSize, total)
    decreases presses
  {
    if presses > 0 {
      PressesReveal(ShowMore(visible, total), total, presses - 1);
      assert (presses - 1) * PageSize + PageSize == presses * PageSize;
    }
  }

  /** Starting from one page, `ceil((total - 6) / 6)` presses reveal every
      item and hide the button. */
  lemma PressesRevealAll(total: nat)
    requires total > PageSize
    ensures var presses := (total - PageSize + PageSize - 1) / PageSize;
      PressShowMore(PageSize, total, presses) == total
      && !ShowMoreButton(true, PressShowMore(PageSize, total, presses), total)
  {
    var presses := (total - PageSize + PageSize - 1) / PageSize;
    PressesReveal(PageSize, total, presses);
    assert PageSize + presses * PageSize >= total;
  }

  /** `grid.items.find(item => item.id === id)` */
  function Find(items: seq<GridItem>, id: string): (r: Option<GridItem>)
    ensures r.None? <==> forall j :: 0 <= j < |items| ==> items[j].item.id != id
    ensures r.Some? ==> exists j :: 0 <= j < |items| && items[j] == r.value
                           && r.value.item.id == id
                           && forall k :: 0 <= k < j ==> items[k].item.id != id
  {
    if |items| == 0 then None
    else if items[0].item.id == id then Some(items[0])
    else
      var r := Find(items[1..], id);
      assert forall j :: 1 <= j < |items| ==> items[1..][j - 1] == items[j];
      r
  }

  /** What the DOM lookups in the click handlers found. */
  datatype Lookup = Lookup(cardFound: bool, containerFound: bool)

  /** `handleCardClick(id)`: clicking a card flips it to the front, or, when
      it is the flipped one, flips it back, provided its grid slot is known
      to animate it back to. Missing elements leave everything as is. */
  function CardClick(flipped: Option<string>, id: string, dom: Lookup, grid: Grid): (next: Option<string>)
    ensures next == flipped || next == Some(id) || next == None
    ensures !dom.cardFound || !dom.containerFound ==> next == flipped
    ensures dom.cardFound && dom.containerFound && flipped != Some(id) ==> next == Some(id)
    ensures dom.cardFound && dom.containerFound && flipped == Some(id) ==>
      (next == None <==> Find(grid.items, id).Some?)
  {
    if !dom.cardFound || !dom.containerFound then flipped
    else if flipped != Some(id) then Some(id)
    else if Find(grid.items, id).None? then flipped
    else None
  }

  /** Clicking a card shows it and only it; clicking it again puts it back
      when it is laid out in the grid. Clicking another card while one is
      shown swaps the shown card. */
  lemma ClickToggles(flipped: Option<string>, id: string, other: string, grid: Grid)
    requires id != other
    requires exists j :: 0 <= j < |grid.items| && grid.items[j].item.id == id
    ensures var dom := Lookup(true, true);
      && CardClick(flipped, id, dom, grid) == (if flipped == Some(id) then None else Some(id))
      && CardClick(CardClick(None, id, dom, grid), id, dom, grid) == None
      && CardClick(Some(other), id, dom, grid) == Some(id)
  {
  }

  /** JavaScript truthiness of the flipped id: `null` and `""` are false. */
  predicate Truthy(flipped: Option<string>)
  {
    flipped.Some? && flipped.value != ""
  }

  /** The document's `mousedown` handler while a card is flipped: a press
      outside the flipped card puts it back, provided its grid slot is
      known. */
  function ClickOutside(flipped: Option<string>, flippedFound: bool, targetInside: bool, grid: Grid): (next: Option<string>)
    ensures next == flipped || next == None
  {
    if !Truthy(flipped) then flipped
    else if !flippedFound || targetInside then flipped
    else if Find(grid.items, flipped.value).None? then flipped
    else None
  }

  /** A press clears the flipped card exactly when one is flipped, its
      element is found, the press is outside it, and it is in the grid;
      otherwise nothing changes. */
  lemma ClickOutsideClears(flipped: Option<string>, flippedFound: bool, targetInside: bool, grid: Grid)
    ensures ClickOutside(flipped, flippedFound, targetInside, grid) == None
        <==> (flipped.None?
              || (Truthy(flipped) && flippedFound && !targetInside
                  && exists j :: 0 <= j < |grid.items| && grid.items[j].item.id == flipped.value))
  {
  }

  /** The box a flipped card animates to: a fixed card centred in the
      container, narrower and shorter on phones. */
  datatype Box = Box(x: real, y: real, w: real, h: real)

  function ExpandedBox(isMobile: bool, container: Rect): (b: Box)
    ensures b.x + b.w / 2.0 == container.width / 2.0
    ensures b.y + b.h / 2.0 == container.height / 2.0
    ensures !isMobile ==> b.w == 420.0 && b.h == 320.0
    ensures isMobile ==> b.w <= 350.0 && b.h <= 280.0
  {
    var w := if isMobile then Min(container.width - 32.0, 350.0) else 420.0;
    var h := if isMobile then Min(container.height - 100.0, 280.0) else 320.0;
    Box(container.width / 2.0 - w / 2.0, container.height / 2.0 - h / 2.0, w, h)
  }

  /** On a phone the flipped card keeps at least 16 pixels from both sides
      of the container and 50 from its top and bottom. */
  lemma ExpandedFitsPhone(container: Rect)
    ensures var b := ExpandedBox(true, container);
      && b.x >= 16.0 && b.x + b.w <= container.width - 16.0
      && b.y >= 50.0 && b.y + b.h <= container.height - 50.0
  {
  }
}

=== FILE: masonry.dfy ===
/** The masonry layout of the showcase gallery (the `grid` memo): each item,
    in order, goes to the shortest column (the leftmost of the shortest on
    ties), directly below what that column already holds. */
module Masonry {
  import opened Numeric

  /** A gallery piece as far as the layout is concerned: its key and its
      nominal height in pixels. */
  datatype ShowcaseItem = ShowcaseItem(id: string, height: real)

  /** A placed piece: the item, the column it went to, its box, and the
      container width it was laid out for. */
  datatype GridItem = GridItem(item: ShowcaseItem, column: nat, x: real, y: real, w: real, h: real, containerWidth: real)

  /** The laid-out items and the height of the container holding them. */
  datatype Grid = Grid(items: seq<GridItem>, containerHeight: real)

  /** The gap between columns and between stacked items. */
  const Gap: real := 16.0
  /** The cap on a piece's height on phones. */
  const MobileCap: real := 280.0

  /** `colHeights.indexOf(Math.min(...colHeights))`: the first index holding
      the smallest height. */
  function ArgMin(hs: seq<real>): (k: nat)
    requires |hs| > 0
    ensures k < |hs|
  {
    if |hs| == 1 then 0
    else
      var k := ArgMin(hs[..|hs| - 1]);
      if hs[|hs| - 1] < hs[k] then |hs| - 1 else k
  }

  /** `ArgMin` picks a smallest height, and no earlier index holds one as
      small. */
  lemma {:induction false} ArgMinIsFirstMinimum(hs: seq<real>)
    requires |hs| > 0
    ensures forall j :: 0 <= j < |hs| ==> hs[ArgMin(hs)] <= hs[j]
    ensures forall j :: 0 <= j < ArgMin(hs) ==> hs[j] > hs[ArgMin(hs)]
  {
    if |hs| > 1 {
      var init := hs[..|hs| - 1];
      ArgMinIsFirstMinimum(init);
      assert forall j :: 0 <= j < |hs| - 1 ==> init[j] == hs[j];
    }
  }

  /** The drawn height of a piece: half its nominal height, capped on
      phones. */
  function ItemHeight(height: real, isMobile: bool): (h: real)
    ensures !isMobile ==> h == height / 2.0
    ensures isMobile ==> h == Min(height / 2.0, MobileCap)
    ensures height >= 0.0 ==> h >= 0.0
  {
    if isMobile then Min(height / 2.0, MobileCap) else height / 2.0
  }

  /** The width of one column: the container minus the gaps between
      columns, shared equally. */
  function ColumnWidth(containerWidth: real, columns: nat): real
    requires columns >= 1
  {
    (containerWidth - (columns - 1) as real * Gap) / columns as real
  }

  /** The columns and the gaps between them fill the container exactly. */
  lemma ColumnsFill(containerWidth: real, columns: nat)
    requires columns >= 1
    ensures ColumnWidth(containerWidth, columns) * columns as real + (columns - 1) as real * Gap == containerWidth
  {
  }

  function Zeros(n: nat): (r: seq<real>)
    ensures |r| == n && forall i :: 0 <= i < n ==> r[i] == 0.0
  {
    seq(n, i => 0.0)
  }

  /** The column heights after placing `items`, starting from empty
      columns: each item adds its height and one gap to the column it went
      to. */
  function Heights(items: seq<ShowcaseItem>, columns: nat, isMobile: bool): (hs: seq<real>)
    requires columns >= 1
    ensures |hs| == columns
    decreases |items|
  {
    if |items| == 0 then Zeros(columns)
    else
      var prev := Heights(items[..|items| - 1], columns, isMobile);
      var c := ArgMin(prev);
      prev[c := prev[c] + ItemHeight(items[|items| - 1].height, isMobile) + Gap]
  }

  /** Where the `i`-th displayed item goes: the first shortest column after
      the items before it, at that column's height. */
  function Place(items: seq<ShowcaseItem>, i: nat, columns: nat, containerWidth: real, isMobile: bool): GridItem
    requires i < |items| && columns >= 1
  {
    var hs := Heights(items[..i], columns, isMobile);
    var col := ArgMin(hs);
    var cw := ColumnWidth(containerWidth, columns);
    GridItem(items[i], col, ColumnX(col, cw), hs[col], cw, ItemHeight(items[i].height, isMobile), containerWidth)
  }

  /** The left edge of column `col`: one column width and one gap per
      column before it. */
  function ColumnX(col: nat, columnWidth: real): real
  {
    col as real * (columnWidth + Gap)
  }

  /** `Math.max(...hs)` */
  function MaxOf(hs: seq<real>): (m: real)
    requires |hs| > 0
    ensures forall j :: 0 <= j < |hs| ==> hs[j] <= m
    ensures exists j :: 0 <= j < |hs| && hs[j] == m
  {
    if |hs| == 1 then hs[0]
    else
      var m := MaxOf(hs[..|hs| - 1]);
      assert forall j :: 0 <= j < |hs| - 1 ==> hs[..|hs| - 1][j] == hs[j];
      Max(m, hs[|hs| - 1])
  }

  /** The first `n` items, each placed as `Place` says. */
  function PlaceAll(items: seq<ShowcaseItem>, n: nat, columns: nat, containerWidth: real, isMobile: bool): (r: seq<GridItem>)
    requires n <= |items| && columns >= 1
    ensures |r| == n
  {
    if n == 0 then []
    else PlaceAll(items, n - 1, columns, containerWidth, isMobile) + [Place(items, n - 1, columns, containerWidth, isMobile)]
  }

  lemma {:induction false} PlaceAllAt(items: seq<ShowcaseItem>, n: nat, columns: nat, containerWidth: real, isMobile: bool)
    requires n <= |items| && columns >= 1
    ensures forall i :: 0 <= i < n ==>
      PlaceAll(items, n, columns, containerWidth, isMobile)[i] == Place(items, i, columns, containerWidth, isMobile)
  {
    if n > 0 {
      PlaceAllAt(items, n - 1, columns, containerWidth, isMobile);
    }
  }

  /** The layout: nothing for a zero-width container, otherwise one placed
      item per displayed item, in order, and a container as tall as the
      tallest column. */
  function Layout(items: seq<ShowcaseItem>, columns: nat, containerWidth: real, isMobile: bool): (g: Grid)
    requires columns >= 1
    ensures containerWidth == 0.0 ==> g.items == [] && g.containerHeight == 0.0
    ensures containerWidth != 0.0 ==>
      && |g.items| == |items|
      && (forall i :: 0 <= i < |items| ==> g.items[i] == Place(items, i, columns, containerWidth, isMobile))
      && g.containerHeight == MaxOf(Heights(items, columns, isMobile))
  {
    if containerWidth == 0.0 then Grid([], 0.0)
    else
      PlaceAllAt(items, |items|, columns, containerWidth, isMobile);
      Grid(PlaceAll(items, |items|, columns, containerWidth, isMobile), MaxOf(Heights(items, columns, isMobile)))
  }

  /** The grid keeps the displayed items, in order, each in one of the
      columns with the common column width and its own drawn height. */
  lemma GridKeepsItems(items: seq<ShowcaseItem>, columns: nat, containerWidth: real, isMobile: bool, i: nat)
    requires columns >= 1 && containerWidth != 0.0 && i < |items|
    ensures var g := Layout(items, columns, containerWidth, isMobile);
      && |g.items| == |items|
      && g.items[i].item == items[i]
      && g.items[i].item.id == items[i].id
      && g.items[i].column < columns
      && g.items[i].w == ColumnWidth(containerWidth, columns)
      && g.items[i].h == ItemHeight(items[i].height, isMobile)
      && g.items[i].containerWidth == containerWidth
  {
  }

  /** The `grid` computation as the source runs it: nothing for a
      zero-width container, otherwise one pass over the items and the
      tallest column as the container height. */
  method ComputeGrid(items: seq<ShowcaseItem>, columns: nat, containerWidth: real, isMobile: bool) returns (g: Grid)
    requires columns >= 1
    ensures g == Layout(items, columns, containerWidth, isMobile)
  {
    if containerWidth == 0.0 {
      return Grid([], 0.0);
    }
    var placed, colHeights := PlaceItems(items, columns, containerWidth, isMobile);
    g := Grid(placed, MaxOf(colHeights));
  }

  /** The pass over the items, with a running array of column heights. */
  method PlaceItems(items: seq<ShowcaseItem>, columns: nat, containerWidth: real, isMobile: bool)
    returns (placed: seq<GridItem>, colHeights: seq<real>)
    requires columns >= 1
    ensures placed == PlaceAll(items, |items|, columns, containerWidth, isMobile)
    ensures colHeights == Heights(items, columns, isMobile)
  {
    colHeights := Zeros(columns);
    var columnWidth := ColumnWidth(containerWidth, columns);
    placed := [];
    for k := 0 to |items|
      invariant colHeights == Heights(items[..k], columns, isMobile)
      invariant placed == PlaceAll(items, k, columns, containerWidth, isMobile)
    {
      var col := ArgMin(colHeights);
      var height := ItemHeight(items[k].height, isMobile);
      var item := GridItem(items[k], col, ColumnX(col, columnWidth), colHeights[col], columnWidth, height, containerWidth);
      PlaceStep(items, k, columns, containerWidth, isMobile, colHeights, placed);
      colHeights := colHeights[col := colHeights[col] + height + Gap];
      placed := placed + [item];
    }
    assert items[..|items|] == items;
  }

  /** Placing the `k`-th item reads the heights after the first `k` and
      bumps the chosen column. */
  lemma PlaceStep(items: seq<ShowcaseItem>, k: nat, columns: nat, containerWidth: real, isMobile: bool,
                  hs: seq<real>, placed: seq<GridItem>)
    requires columns >= 1 && k < |items|
    requires hs == Heights(items[..k], columns, isMobile)
    requires placed == PlaceAll(items, k, columns, containerWidth, isMobile)
    ensures var col := ArgMin(hs);
      var height := ItemHeight(items[k].height, isMobile);
      var cw := ColumnWidth(containerWidth, columns);
      && placed + [GridItem(items[k], col, ColumnX(col, cw), hs[col], cw, height, containerWidth)]
         == PlaceAll(items, k + 1, columns, containerWidth, isMobile)
      && hs[col := hs[col] + height + Gap] == Heights(items[..k + 1], columns, isMobile)
  {
    assert items[..k + 1][..k] == items[..k];
  }

  /** Column heights never shrink as items are added (for items of
      non-negative height), and the column an item went to grows by exactly
      its height and one gap. */
  lemma {:induction false} HeightsGrow(items: seq<ShowcaseItem>, i: nat, j: nat, columns: nat, isMobile: bool, c: nat)
    requires columns >= 1 && c < columns
    requires i <= j <= |items|
    requires forall k :: 0 <= k < |items| ==> items[k].height >= 0.0
    ensures Heights(items[..i], columns, isMobile)[c] <= Heights(items[..j], columns, isMobile)[c]
    decreases j - i
  {
    if i < j {
      HeightsGrow(items, i, j - 1, columns, isMobile, c);
      HeightsNeverShrink(items, j - 1, columns, isMobile, c);
    }
  }

  /** Placing one more item of non-negative height leaves every column at
      least as tall as before. */
  lemma HeightsNeverShrink(items: seq<ShowcaseItem>, k: nat, columns: nat, isMobile: bool, c: nat)
    requires columns >= 1 && c < columns && k < |items|
    requires items[k].height >= 0.0
    ensures Heights(items[..k], columns, isMobile)[c] <= Heights(items[..k + 1], columns, isMobile)[c]
  {
    assert items[..k + 1][..k] == items[..k];
    assert items[..k + 1][k] == items[k];
    assert ItemHeight(items[k].height, isMobile) >= 0.0;
  }

  lemma HeightsStep(items: seq<ShowcaseItem>, i: nat, columns: nat, isMobile: bool)
    requires columns >= 1 && i < |items|
    ensures var c := ArgMin(Heights(items[..i], columns, isMobile));
      Heights(items[..i + 1], columns, isMobile)[c]
        == Heights(items[..i], columns, isMobile)[c] + ItemHeight(items[i].height, isMobile) + Gap
  {
    assert items[..i + 1][..i] == items[..i];
  }

  /** Items in the same column never overlap: a later one starts at least
      one gap below the bottom of an earlier one. */
  lemma NoOverlapInColumn(items: seq<ShowcaseItem>, columns: nat, containerWidth: real, isMobile: bool, i: nat, j: nat)
    requires columns >= 1 && containerWidth != 0.0
    requires forall k :: 0 <= k < |items| ==> items[k].height >= 0.0
    requires i < j < |items|
    requires Layout(items, columns, containerWidth, isMobile).items[i].column
          == Layout(items, columns, containerWidth, isMobile).items[j].column
    ensures var g := Layout(items, columns, containerWidth, isMobile);
      g.items[j].y >= g.items[i].y + g.items[i].h + Gap
  {
    var g := Layout(items, columns, containerWidth, isMobile);
    var c := g.items[i].column;
    HeightsStep(items, i, columns, isMobile);
    HeightsGrow(items, i + 1, j, columns, isMobile, c);
  }

  /** The container is tall enough for every item. */
  lemma ContainerHoldsItems(items: seq<ShowcaseItem>, columns: nat, containerWidth: real, isMobile: bool, i: nat)
    requires columns >= 1 && containerWidth != 0.0
    requires forall k :: 0 <= k < |items| ==> items[k].height >= 0.0
    requires i < |items|
    ensures var g := Layout(items, columns, containerWidth, isMobile);
      g.items[i].y + g.items[i].h + Gap <= g.containerHeight
  {
    var g := Layout(items, columns, containerWidth, isMobile);
    var c := g.items[i].column;
    HeightsStep(items, i, columns, isMobile);
    HeightsGrow(items, i + 1, |items|, columns, isMobile, c);
    assert items[..|items|] == items;
  }

  /** Columns sit side by side inside the container: every item starts at
      or right of its left edge and ends at or left of its right edge, and
      items in different columns are at least one gap apart. */
  lemma ColumnsInsideContainer(items: seq<ShowcaseItem>, columns: nat, containerWidth: real, isMobile: bool, i: nat, j: nat)
    requires columns >= 1
    requires containerWidth >= (columns - 1) as real * Gap
    requires i < |items| && j < |items|
    ensures var gi := Place(items, i, columns, containerWidth, isMobile);
      var gj := Place(items, j, columns, containerWidth, isMobile);
      && 0.0 <= gi.x
      && gi.x + gi.w <= containerWidth
      && (gi.column < gj.column ==> gi.x + gi.w + Gap <= gj.x)
  {
    var gi := Place(items, i, columns, containerWidth, isMobile);
    var gj := Place(items, j, columns, containerWidth, isMobile);
    ColumnsOfContainer(gi.column, gj.column, columns, containerWidth);
  }

  /** Column geometry for the column width a container yields. */
  lemma ColumnsOfContainer(col1: nat, col2: nat, columns: nat, containerWidth: real)
    requires col1 < columns
    requires containerWidth >= (columns - 1) as real * Gap
    ensures var cw := ColumnWidth(containerWidth, columns);
      && 0.0 <= ColumnX(col1, cw) && ColumnX(col1, cw) + cw <= containerWidth
      && (col1 < col2 ==> ColumnX(col1, cw) + cw + Gap <= ColumnX(col2, cw))
  {
    ColumnsFill(containerWidth, columns);
    NonNegativeWidth(containerWidth, columns);
    ColumnGeometry(col1, col2, columns, ColumnWidth(containerWidth, columns), containerWidth);
  }

  /** Column geometry for any width that fills the container: the
      `col1`-th column lies inside it and, when `col2` is further right, ends
      at least one gap before it. */
  lemma ColumnGeometry(col1: nat, col2: nat, columns: nat, cw: real, containerWidth: real)
    requires col1 < columns && cw >= 0.0
    requires cw * columns as real + (columns - 1) as real * Gap == containerWidth
    ensures 0.0 <= ColumnX(col1, cw) && ColumnX(col1, cw) + cw <= containerWidth
    ensures col1 < col2 ==> ColumnX(col1, cw) + cw + Gap <= ColumnX(col2, cw)
  {
    ColumnInside(col1, columns, cw);
    if col1 < col2 {
      ColumnsApart(col1, col2, cw);
    }
  }

  /** A container wide enough for the gaps leaves columns of non-negative
      width. */
  lemma NonNegativeWidth(containerWidth: real, columns: nat)
    requires columns >= 1
    requires containerWidth >= (columns - 1) as real * Gap
    ensures ColumnWidth(containerWidth, columns) >= 0.0
  {
    var n := columns as real;
    var free := containerWidth - (columns - 1) as real * Gap;
    var cw := free / n;
    assert cw * n == free;
    if cw < 0.0 {
      MulMonotoneStrict(cw, 0.0, n);
    }
  }

  /** Column `col` of `columns` lies within `columns` widths plus the gaps
      between them. */
  lemma ColumnInside(col: nat, columns: nat, cw: real)
    requires col < columns && cw >= 0.0
    ensures 0.0 <= ColumnX(col, cw)
    ensures ColumnX(col, cw) + cw <= cw * columns as real + (columns - 1) as real * Gap
  {
    var n := columns as real;
    var c := col as real;
    assert c <= n - 1.0;
    MulMonotone(c, n - 1.0, cw + Gap);
    assert (n - 1.0) * (cw + Gap) + cw == cw * n + (n - 1.0) * Gap;
  }

  /** A column to the left ends at least one gap before the next one
      starts. */
  lemma ColumnsApart(c1: nat, c2: nat, cw: real)
    requires c1 < c2 && cw >= 0.0
    ensures ColumnX(c1, cw) + cw + Gap <= ColumnX(c2, cw)
  {
    assert ColumnX(c1, cw) + cw + Gap == ColumnX(c1 + 1, cw);
    MulMonotone((c1 + 1) as real, c2 as real, cw + Gap);
  }

  /** The showcase's pieces, with their nominal heights. */
  function Catalogue(): (items: seq<ShowcaseItem>)
    ensures |items| == 18
    ensures forall k :: 0 <= k < |items| ==> items[k].height > 0.0
  {
    [ ShowcaseItem("2", 220.0), ShowcaseItem("1", 400.0), ShowcaseItem("15", 660.0),
      ShowcaseItem("17", 300.0), ShowcaseItem("3", 370.0), ShowcaseItem("4", 550.0),
      ShowcaseItem("7", 425.0), ShowcaseItem("9", 380.0), ShowcaseItem("11", 290.0),
      ShowcaseItem("5", 400.0), ShowcaseItem("12", 295.0), ShowcaseItem("13", 260.0),
      ShowcaseItem("14", 660.0), ShowcaseItem("16", 250.0), ShowcaseItem("8", 275.0),
      ShowcaseItem("10", 350.0), ShowcaseItem("19", 290.0), ShowcaseItem("6", 300.0) ]
  }
  /** Laid out in any non-empty container, the showcase keeps all eighteen
      pieces in their order, and the container is tall enough for each. */
  lemma CatalogueLayout(columns: nat, containerWidth: real, isMobile: bool)
    requires columns >= 1 && containerWidth != 0.0
    ensures var g := Layout(Catalogue(), columns, containerWidth, isMobile);
      && |g.items| == 18
      && (forall i :: 0 <= i < 18 ==> g.items[i].item == Catalogue()[i])
      && (forall i :: 0 <= i < 18 ==> g.items[i].y + g.items[i].h + Gap <= g.containerHeight)
  {
    var items := Catalogue();
    var g := Layout(items, columns, containerWidth, isMobile);
    forall i | 0 <= i < 18
      ensures g.items[i].item == items[i]
      ensures g.items[i].y + g.items[i].h + Gap <= g.containerHeight
    {
      GridKeepsItems(items, columns, containerWidth, isMobile, i);
      ContainerHoldsItems(items, columns, containerWidth, isMobile, i);
    }
  }
}

=== FILE: numeric.dfy ===
/** Exact-arithmetic counterparts of the JavaScript `Math` helpers the
    components use (`Math.abs`, `Math.min`, `Math.max`, `Math.sign`,
    `Math.round`), together with the small facts the other modules need. */
module Numeric {

  /** `Math.abs` */
  function Abs(x: real): (r: real)
    ensures r >= 0.0
    ensures r == x || r == -x
  {
    if x < 0.0 then -x else x
  }

  /** `Math.min` of two numbers */
  function Min(a: real, b: real): (r: real)
    ensures r <= a && r <= b
    ensures r == a || r == b
  {
    if a <= b then a else b
  }

  /** `Math.min` of two counts */
  function MinNat(a: nat, b: nat): (r: nat)
    ensures r <= a && r <= b
    ensures r == a || r == b
  {
    if a <= b then a else b
  }

  /** `Math.max` of two numbers */
  function Max(a: real, b: real): (r: real)
    ensures r >= a && r >= b
    ensures r == a || r == b
  {
    if a >= b then a else b
  }

  /** `Math.min(Math.max(v, lo), hi)`: the clamp idiom of the tilt card and
      the return animation. */
  function Clamp(v: real, lo: real, hi: real): (r: real)
    requires lo <= hi
    ensures lo <= r <= hi
    ensures lo <= v <= hi ==> r == v
    ensures v < lo ==> r == lo
    ensures v > hi ==> r == hi
  {
    Min(Max(v, lo), hi)
  }

  /** A positive product with a positive factor has a positive other
      factor. */
  lemma ProductPositive(a: real, b: real)
    requires b > 0.0 && a * b > 0.0
    ensures a > 0.0
  {
  }

  /** A non-negative product with a positive factor has a non-negative
      other factor. */
  lemma ProductSign(a: real, b: real)
    requires b > 0.0 && a * b >= 0.0
    ensures a >= 0.0
  {
  }

  /** Dividing by a positive number keeps the order. */
  lemma DivMonotone(a: real, b: real, d: real)
    requires a <= b && d > 0.0
    ensures a / d <= b / d
  {
    var x := a / d;
    var y := b / d;
    assert x * d == a && y * d == b;
    assert (y - x) * d == b - a;
    ProductSign(y - x, d);
  }

  /** Clamping keeps the order of its arguments. */
  lemma ClampMonotone(v: real, w: real, lo: real, hi: real)
    requires lo <= hi && v <= w
    ensures Clamp(v, lo, hi) <= Clamp(w, lo, hi)
  {
  }

  /** `Math.sign` on a non-NaN number */
  function Sign(x: real): (r: real)
    ensures r == 1.0 || r == 0.0 || r == -1.0
    ensures r * x == Abs(x)
    ensures r * Abs(x) == x
  {
    if x > 0.0 then 1.0 else if x < 0.0 then -1.0 else 0.0
  }

  /** `Math.round`: the nearest integer, halves rounded towards +infinity. */
  function Round(x: real): (r: int)
    ensures x - 0.5 < r as real <= x + 0.5
  {
    (x + 0.5).Floor
  }

  /** The integer that `Round` picks is the only one in its half-open window,
      so rounding an integer gives it back. */
  lemma RoundOfInteger(k: int)
    ensures Round(k as real) == k
  {
  }

  /** `x` raised to a natural power. */
  function Pow(x: real, n: nat): real
  {
    if n == 0 then 1.0 else x * Pow(x, n - 1)
  }

  /** Powers of a number in `[0, 1]` stay in `[0, 1]`. */
  lemma {:induction false} PowUnit(x: real, n: nat)
    requires 0.0 <= x <= 1.0
    ensures 0.0 <= Pow(x, n) <= 1.0
  {
    if n > 0 {
      PowUnit(x, n - 1);
      MulUnit(x, Pow(x, n - 1));
    }
  }

  /** The product of two numbers in `[0, 1]` is in `[0, 1]`. */
  lemma MulUnit(a: real, b: real)
    requires 0.0 <= a <= 1.0 && 0.0 <= b <= 1.0
    ensures 0.0 <= a * b <= b
  {
  }

  /** Multiplying by a non-negative factor keeps the order. */
  lemma MulMonotone(a: real, b: real, c: real)
    requires a <= b && c >= 0.0
    ensures a * c <= b * c
  {
  }

  /** Multiplying by a positive factor keeps strict order. */
  lemma MulMonotoneStrict(a: real, b: real, c: real)
    requires a < b && c > 0.0
    ensures a * c < b * c
  {
  }

  /** Multiplying by a positive factor keeps which side of `m` a number is
      on, measured against `m`'s own product `c`. */
  lemma MulAgainst(m: real, a: real, k: real, c: real)
    requires k > 0.0 && m * k == c
    ensures a > m ==> a * k > c
    ensures a < m ==> a * k < c
  {
    if a > m {
      assert m * k < a * k;
    } else if a < m {
      assert a * k < m * k;
    }
  }

  /** Scaling a number by a factor in `[0, 1]` keeps it between zero and
      itself. */
  lemma ScaleBetween(d: real, e: real)
    requires 0.0 <= e <= 1.0
    ensures d >= 0.0 ==> 0.0 <= d * e <= d
    ensures d < 0.0 ==> d <= d * e <= 0.0
  {
    if d >= 0.0 {
      MulMonotone(0.0, e, d);
      MulMonotone(e, 1.0, d);
    } else {
      MulMonotone(0.0, e, -d);
      MulMonotone(e, 1.0, -d);
      assert e * -d == -(e * d);
    }
  }

  /** Squaring is monotone on the non-negative reals. */
  lemma SquareMonotone(a: real, b: real)
    requires 0.0 <= a <= b
    ensures a * a <= b * b
  {
    assert a * a <= a * b <= b * b;
  }

  /** `x` cubed. */
  function Cube(x: real): real
  {
    x * x * x
  }

  /** Cubing is monotone and non-negative on the non-negative reals. */
  lemma CubeMonotone(a: real, b: real)
    requires 0.0 <= a <= b
    ensures 0.0 <= Cube(a) <= Cube(b)
  {
    SquareMonotone(a, b);
    var aa := a * a;
    var bb := b * b;
    MulMonotone(0.0, a, a);
    MulMonotone(0.0, aa, a);
    MulMonotone(aa, bb, a);
    MulMonotone(a, b, bb);
    assert Cube(a) == aa * a && Cube(b) == bb * b;
  }

}

/** The optional-value datatype used wherever the source has `undefined`
    or `null`. */
module Options {

  datatype Option<+T> = None | Some(value: T) {

    /** The `??` operator: the value if present, else the default. */
    function GetOr(default: T): (r: T)
      ensures Some? ==> r == value
      ensures None? ==> r == default
    {
      match this
      case Some(v) => v
      case None => default
    }
  }
}

=== FILE: scroll.dfy ===
/** The scroll state machine of the review carousel: the per-frame easing
    tick, the pointer and wheel handlers, and snap-to-slot. Handlers only
    ever move `target`; only the tick moves `current`. */
module Scroll {
  import opened Numeric
  import opened Options

  /** Which way the strip moved during the last tick. */
  datatype Direction = Right | Left

  /** `App.scroll` together with the drag fields `isDown` and `start`.
      `position` is the value of `current` captured at pointer-down; it is
      absent until the first press. `snapPending` stands for the armed
      200 ms debounce timer of the wheel handler. */
  datatype ScrollState = ScrollState(
    current: real,
    target: real,
    last: real,
    position: Option<real>,
    isDown: bool,
    start: real,
    snapPending: bool)

  /** The constant smoothing ratio `scroll.ease`. */
  const Ease: real := 0.08
  /** World units of target movement per pixel of drag. */
  const DragSensitivity: real := 0.04
  /** Target movement per wheel event. */
  const WheelStep: real := 1.5

  /** The state after construction: everything at rest at offset 0. */
  function Initial(): (s: ScrollState)
    ensures s.current == s.target == s.last == 0.0
    ensures !s.isDown && !s.snapPending && s.position.None?
  {
    ScrollState(0.0, 0.0, 0.0, None, false, 0.0, false)
  }

  /** `lerp(p1, p2, t)`: the point a fraction `t` of the way from `p1` to
      `p2`. For `t` in `[0, 1]` it lies between the two and leaves a
      fraction `1 - t` of the distance to `p2` still to go. */
  function Lerp(p1: real, p2: real, t: real): (r: real)
    ensures 0.0 <= t <= 1.0 ==> Min(p1, p2) <= r <= Max(p1, p2)
    ensures 0.0 <= t <= 1.0 ==> Abs(p2 - r) == (1.0 - t) * Abs(p2 - p1)
    ensures t == 0.0 ==> r == p1
    ensures t == 1.0 ==> r == p2
  {
    var r := p1 + (p2 - p1) * t;
    LerpFacts(p1, p2, t);
    r
  }

  lemma LerpFacts(p1: real, p2: real, t: real)
    ensures p2 - (p1 + (p2 - p1) * t) == (p2 - p1) * (1.0 - t)
    ensures 0.0 <= t <= 1.0 && p1 <= p2 ==> 0.0 <= (p2 - p1) * t <= p2 - p1
    ensures 0.0 <= t <= 1.0 && p2 < p1 ==> p2 - p1 <= (p2 - p1) * t <= 0.0
  {
    if 0.0 <= t <= 1.0 {
      var d := p2 - p1;
      if p1 <= p2 {
        MulMonotone(0.0, t, d);
        MulMonotone(t, 1.0, d);
        assert 0.0 <= t * d <= d;
        assert d * t == t * d;
      } else {
        MulMonotone(0.0, t, -d);
        MulMonotone(t, 1.0, -d);
        assert 0.0 <= t * -d <= -d;
        assert d * t == -(t * -d);
      }
    }
  }

  /** The result of one tick of `App.update`: the new state and the
      direction handed to every card. */
  datatype Ticked = Ticked(state: ScrollState, direction: Direction)

  /** One tick: ease `current` towards `target`, derive the direction by
      comparing with `last`, then record the post-update `current` as
      `last`. The target and the drag fields are untouched. */
  function Tick(s: ScrollState): (t: Ticked)
    ensures Min(s.current, s.target) <= t.state.current <= Max(s.current, s.target)
    ensures Abs(s.target - t.state.current) == (1.0 - Ease) * Abs(s.target - s.current)
    ensures t.direction == Right <==> t.state.current > s.last
    ensures t.state.last == t.state.current
    ensures s.target - t.state.current == (1.0 - Ease) * (s.target - s.current)
    ensures t.state == s.(current := t.state.current, last := t.state.current)
  {
    var current := Lerp(s.current, s.target, Ease);
    var direction := if current > s.last then Right else Left;
    Ticked(s.(current := current, last := current), direction)
  }

  /** `n` ticks with no input in between. */
  function Ticks(s: ScrollState, n: nat): ScrollState
  {
    if n == 0 then s else Tick(Ticks(s, n - 1)).state
  }

  /** `d` scaled by the easing complement `1 - Ease` `n` times. */
  function Shrink(d: real, n: nat): real
  {
    if n == 0 then d else (1.0 - Ease) * Shrink(d, n - 1)
  }

  /** Without input the target never moves, and each frame keeps exactly
      the fraction `1 - Ease` of the signed distance to it. */
  lemma {:induction false} TicksShrink(s: ScrollState, n: nat)
    ensures Ticks(s, n).target == s.target
    ensures s.target - Ticks(s, n).current == Shrink(s.target - s.current, n)
  {
    if n > 0 {
      TicksShrink(s, n - 1);
    }
  }

  lemma {:induction false} ShrinkIsPow(d: real, n: nat)
    ensures Shrink(d, n) == Pow(1.0 - Ease, n) * d
  {
    if n > 0 {
      ShrinkIsPow(d, n - 1);
      ScaleChain(d, (1.0 - Ease) * d, Shrink(d, n), Pow(1.0 - Ease, n - 1));
    }
  }

  /** Without input the offset converges geometrically: after `n` frames
      exactly `0.92^n` of the (signed) distance to the target is left, so
      `current` approaches the target from one side and never overshoots. */
  lemma {:induction false} TicksConverge(s: ScrollState, n: nat)
    ensures Ticks(s, n).target == s.target
    ensures s.target - Ticks(s, n).current == Pow(1.0 - Ease, n) * (s.target - s.current)
  {
    var d := s.target - s.current;
    TicksShrink(s, n);
    ShrinkIsPow(d, n);
    assert s.target - Ticks(s, n).current == Shrink(d, n);
  }

  /** `onTouchDown`: start a drag, anchored at the pointer's x coordinate
      and at the current offset. */
  function PointerDown(s: ScrollState, x: real): (r: ScrollState)
    ensures r.isDown && r.start == x && r.position == Some(s.current)
    ensures r.current == s.current && r.target == s.target && r.last == s.last
    ensures r.snapPending == s.snapPending
  {
    s.(isDown := true, position := Some(s.current), start := x)
  }

  /** `onTouchMove`: ignored unless a drag is in progress; otherwise the
      target follows the pointer from the anchor, moving opposite to the
      pointer. */
  function PointerMove(s: ScrollState, x: real): (r: ScrollState)
    ensures !s.isDown ==> r == s
    ensures s.isDown ==> r.target == s.position.GetOr(0.0) + (s.start - x) * DragSensitivity
    ensures r == s.(target := r.target)
  {
    if !s.isDown then s
    else s.(target := s.position.GetOr(0.0) + (s.start - x) * DragSensitivity)
  }

  /** Pressing and moving without displacement sets the target to the
      offset at the press: a drag never starts with a jump. */
  lemma PressWithoutDisplacement(s: ScrollState, x: real)
    ensures PointerMove(PointerDown(s, x), x).target == s.current
    ensures PointerMove(PointerDown(s, x), x).current == s.current
  {
  }

  /** Dragging is linear: two moves of the same drag differ in target by
      the sensitivity times the pointer distance, in the opposite sense. */
  lemma DragLinear(s: ScrollState, x1: real, x2: real)
    requires s.isDown
    ensures PointerMove(s, x2).target - PointerMove(s, x1).target == (x1 - x2) * DragSensitivity
  {
  }

  /** The signed wheel increment: any `deltaY` that is not positive,
      zero included, scrolls back. */
  function WheelDelta(deltaY: real): (d: real)
    ensures deltaY > 0.0 <==> d > 0.0
    ensures Abs(d) == WheelStep
  {
    if deltaY > 0.0 then WheelStep else -WheelStep
  }

  /** `onWheel`: move the target by one wheel step and (re)arm the debounced
      snap. */
  function Wheel(s: ScrollState, deltaY: real): (r: ScrollState)
    ensures r.target == s.target + WheelDelta(deltaY)
    ensures r.snapPending
    ensures r.current == s.current && r.last == s.last && r.isDown == s.isDown
    ensures r.position == s.position && r.start == s.start
  {
    s.(target := s.target + WheelDelta(deltaY), snapPending := true)
  }

  /** One step forward and one step back cancel on the target. */
  lemma WheelBackAndForth(s: ScrollState, down: real, up: real)
    requires down > 0.0 && up <= 0.0
    ensures Wheel(Wheel(s, down), up).target == s.target
    ensures Wheel(Wheel(s, up), down).target == s.target
  {
  }

  /** The slot index the target snaps to: `Math.round(|target| / width)`. */
  function SnapIndex(target: real, width: real): (k: nat)
    requires width > 0.0
    ensures Abs(target) / width - 0.5 < k as real <= Abs(target) / width + 0.5
  {
    var k := Round(Abs(target) / width);
    assert k >= 0;
    k
  }

  /** The snapped target: the slot boundary nearest to `target`, keeping
      its sign (a negative target never snaps to a positive one and vice
      versa), and never more than half a slot away. */
  function SnapTarget(target: real, width: real): (r: real)
    requires width > 0.0
    ensures Abs(r) == SnapIndex(target, width) as real * width
    ensures target < 0.0 ==> r <= 0.0
    ensures target >= 0.0 ==> r >= 0.0
    ensures Abs(r - target) <= width / 2.0
  {
    var k := SnapIndex(target, width);
    var item := width * k as real;
    SnapWindow(Abs(target), width, k as real);
    if target < 0.0 then -item else item
  }

  /** Multiplying the rounding window `q - 0.5 < k <= q + 0.5` of
      `q = a / w` back by `w`. */
  lemma SnapWindow(a: real, w: real, k: real)
    requires w > 0.0
    requires a / w - 0.5 < k <= a / w + 0.5
    ensures a - w / 2.0 < k * w <= a + w / 2.0
  {
    WindowUpper(a, w, k);
    WindowLower(a, w, k);
  }

  lemma WindowUpper(a: real, w: real, k: real)
    requires w > 0.0
    requires k <= a / w + 0.5
    ensures k * w <= a + w / 2.0
  {
    var q := a / w;
    assert q * w == a;
    MulMonotone(k, q + 0.5, w);
    assert (q + 0.5) * w == q * w + 0.5 * w;
  }

  lemma WindowLower(a: real, w: real, k: real)
    requires w > 0.0
    requires a / w - 0.5 < k
    ensures a - w / 2.0 < k * w
  {
    var q := a / w;
    assert q * w == a;
    MulMonotoneStrict(q - 0.5, k, w);
    assert (q - 0.5) * w == q * w - 0.5 * w;
  }

  lemma DivOfMultiple(a: real, k: real, w: real)
    requires w > 0.0 && a == k * w
    ensures a / w == k
  {
    var q := a / w;
    assert q * w == a;
    assert (q - k) * w == 0.0;
  }

  lemma ScaleChain(d0: real, d1: real, dn: real, p: real)
    requires d1 == (1.0 - Ease) * d0 && dn == p * d1
    ensures dn == ((1.0 - Ease) * p) * d0
  {
  }

  /** Snapping an already snapped target changes nothing. */
  lemma {:induction false} SnapIdempotent(target: real, width: real)
    requires width > 0.0
    ensures SnapTarget(SnapTarget(target, width), width) == SnapTarget(target, width)
  {
    var k := SnapIndex(target, width);
    var t1 := SnapTarget(target, width);
    assert Abs(t1) == k as real * width;
    DivOfMultiple(Abs(t1), k as real, width);
    RoundOfInteger(k);
    assert SnapIndex(t1, width) == k;
  }

  /** `onCheck`: snap the target to a slot boundary, using the slot width of
      the first card; with no cards there is nothing to align to and the
      state is unchanged. */
  function Check(s: ScrollState, firstWidth: Option<real>): (r: ScrollState)
    requires firstWidth.Some? ==> firstWidth.value > 0.0
    ensures firstWidth.None? ==> r == s
    ensures firstWidth.Some? ==> r.target == SnapTarget(s.target, firstWidth.value)
    ensures r == s.(target := r.target)
  {
    match firstWidth
    case None => s
    case Some(w) => s.(target := SnapTarget(s.target, w))
  }

  /** `onTouchUp`: end the drag and snap at once. */
  function PointerUp(s: ScrollState, firstWidth: Option<real>): (r: ScrollState)
    requires firstWidth.Some? ==> firstWidth.value > 0.0
    ensures !r.isDown
    ensures r == Check(s.(isDown := false), firstWidth)
    ensures r.current == s.current && r.last == s.last
  {
    Check(s.(isDown := false), firstWidth)
  }

  /** The wheel debounce timer firing: a pending snap is applied and
      disarmed; without one nothing happens. */
  function DebounceFire(s: ScrollState, firstWidth: Option<real>): (r: ScrollState)
    requires firstWidth.Some? ==> firstWidth.value > 0.0
    ensures !r.snapPending
    ensures s.snapPending ==> r == Check(s.(snapPending := false), firstWidth)
    ensures !s.snapPending ==> r == s
  {
    if s.snapPending then Check(s.(snapPending := false), firstWidth) else s
  }

  /** After a release, or once the debounce timer fires on a settled wheel,
      the target rests on a slot boundary, and a second snap would not move
      it. */
  lemma ReleaseRestsOnSlot(s: ScrollState, w: real)
    requires w > 0.0
    ensures var r := PointerUp(s, Some(w));
      && Abs(r.target) == SnapIndex(s.target, w) as real * w
      && Check(r, Some(w)) == r
    ensures s.snapPending ==>
      var r := DebounceFire(s, Some(w));
      && Abs(r.target) == SnapIndex(s.target, w) as real * w
      && Check(r, Some(w)) == r
  {
    SnapIdempotent(s.target, w);
  }
}

=== FILE: tilt.dfy ===
/** The tilting profile card of the about section: the CSS variables set
    from the pointer position (`updateCardTransform`), the eased return to
    the centre after the pointer leaves (`createSmoothAnimation`), and the
    16 ms throttle on pointer moves. `Math.hypot` is passed in as a
    function. */
module Tilt {
  import opened Numeric

  /** The CSS variables the card writes, as numbers: the pointer in percent
      of the card, its distance from the centre in `[0, 1]`, its position
      from the top and left in `[0, 1]`, and the two tilt angles in
      degrees. */
  datatype CardVars = CardVars(
    pointerX: real, pointerY: real,
    fromCenter: real, fromTop: real, fromLeft: real,
    rotateX: real, rotateY: real)

  /** `Math.min(Math.max((100 / size) * offset, 0), 100)` */
  function Percent(offset: real, size: real): (p: real)
    requires size > 0.0
    ensures 0.0 <= p <= 100.0
  {
    Clamp((100.0 / size) * offset, 0.0, 100.0)
  }

  /** The pointer percentage rises with the offset, is 0 at or before the
      card's near edge, 100 at or past its far edge, and 50 halfway
      across. */
  lemma PercentShape(a: real, b: real, size: real)
    requires size > 0.0
    ensures a <= b ==> Percent(a, size) <= Percent(b, size)
    ensures a <= 0.0 ==> Percent(a, size) == 0.0
    ensures a >= size ==> Percent(a, size) == 100.0
    ensures Percent(size / 2.0, size) == 50.0
  {
    PercentScale(size);
    if a <= b {
      ScaledMonotone(a, b, size);
    }
    if a >= size {
      ScaledMonotone(size, a, size);
    }
    if a <= 0.0 {
      ScaledMonotone(a, 0.0, size);
    }
  }

  lemma ScaledMonotone(a: real, b: real, size: real)
    requires size > 0.0 && a <= b
    ensures (100.0 / size) * a <= (100.0 / size) * b
    ensures Percent(a, size) <= Percent(b, size)
  {
    PercentScale(size);
    MulMonotone(a, b, 100.0 / size);
    ClampMonotone((100.0 / size) * a, (100.0 / size) * b, 0.0, 100.0);
  }

  /** The scale `100 / size` is positive and maps the card's width to 100
      and its middle to 50. */
  lemma PercentScale(size: real)
    requires size > 0.0
    ensures 100.0 / size > 0.0
    ensures (100.0 / size) * size == 100.0
    ensures (100.0 / size) * (size / 2.0) == 50.0
  {
  }

  /** The clamped percentage lies above, at or below 50 exactly as the
      offset lies beyond, at or before the middle of the card. */
  lemma PercentAgainstMiddle(a: real, size: real)
    requires size > 0.0
    ensures Percent(a, size) > 50.0 <==> a > size / 2.0
    ensures Percent(a, size) < 50.0 <==> a < size / 2.0
  {
    PercentScale(size);
    MulAgainst(size / 2.0, a, 100.0 / size, 50.0);
  }

  /** `updateCardTransform` for a pointer at `(offsetX, offsetY)` inside a
      card of the given size: the pointer in clamped percent of the card,
      the tilt about x against its horizontal offset from the centre (one
      degree per 12 percent) and about y with its vertical offset (one
      degree per 10 percent). */
  function CardTransform(offsetX: real, offsetY: real, width: real, height: real, hypot: (real, real) -> real): (v: CardVars)
    requires width > 0.0 && height > 0.0
    ensures v.pointerX == Percent(offsetX, width)
    ensures v.pointerY == Percent(offsetY, height)
    ensures 0.0 <= v.pointerX <= 100.0 && 0.0 <= v.pointerY <= 100.0
    ensures 0.0 <= v.fromLeft <= 1.0 && 0.0 <= v.fromTop <= 1.0
    ensures v.fromLeft * 100.0 == v.pointerX && v.fromTop * 100.0 == v.pointerY
    ensures v.fromCenter == Min(hypot(v.pointerY - 50.0, v.pointerX - 50.0) / 50.0, 1.0)
    ensures v.fromCenter <= 1.0
    ensures v.rotateX == -(v.pointerX - 50.0) / 12.0 && v.rotateY == (v.pointerY - 50.0) / 10.0
    ensures -50.0 / 12.0 <= v.rotateX <= 50.0 / 12.0
    ensures -5.0 <= v.rotateY <= 5.0
  {
    var percentX := Percent(offsetX, width);
    var percentY := Percent(offsetY, height);
    var centerX := percentX - 50.0;
    var centerY := percentY - 50.0;
    CardVars(
      percentX, percentY,
      Min(hypot(percentY - 50.0, percentX - 50.0) / 50.0, 1.0),
      percentY / 100.0, percentX / 100.0,
      -(centerX / 12.0), centerY / 10.0)
  }

  /** The tilt follows the pointer: right of the card's middle tips it one
      way, left the other; below the middle tips it one way, above the
      other; and a pointer at the centre leaves it flat. This holds both of
      the percentages and of the raw offsets. */
  lemma TiltFollowsPointer(offsetX: real, offsetY: real, width: real, height: real, hypot: (real, real) -> real)
    requires width > 0.0 && height > 0.0
    ensures var v := CardTransform(offsetX, offsetY, width, height, hypot);
      && (v.pointerX > 50.0 <==> v.rotateX < 0.0)
      && (v.pointerX < 50.0 <==> v.rotateX > 0.0)
      && (v.pointerY > 50.0 <==> v.rotateY > 0.0)
      && (v.pointerY < 50.0 <==> v.rotateY < 0.0)
    ensures var v := CardTransform(offsetX, offsetY, width, height, hypot);
      && (offsetX > width / 2.0 <==> v.rotateX < 0.0)
      && (offsetX < width / 2.0 <==> v.rotateX > 0.0)
      && (offsetY > height / 2.0 <==> v.rotateY > 0.0)
      && (offsetY < height / 2.0 <==> v.rotateY < 0.0)
    ensures var v := CardTransform(width / 2.0, height / 2.0, width, height, hypot);
      v.pointerX == 50.0 && v.pointerY == 50.0 && v.rotateX == 0.0 && v.rotateY == 0.0
  {
    PercentShape(width / 2.0, width / 2.0, width);
    PercentShape(height / 2.0, height / 2.0, height);
    PercentAgainstMiddle(offsetX, width);
    PercentAgainstMiddle(offsetY, height);
  }

  /** `hypot` behaves as the Euclidean length does: it is at least the
      larger of the two legs and at most their sum. */
  ghost predicate IsHypot(hypot: (real, real) -> real)
  {
    forall a: real, b: real {:trigger hypot(a, b)} ::
      Max(Abs(a), Abs(b)) <= hypot(a, b) <= Abs(a) + Abs(b)
  }

  /** With such a `hypot` the distance from the centre is in `[0, 1]`, is
      zero exactly when the pointer is at the centre, and is 1 whenever the
      pointer is on the card's border. */
  lemma FromCenterRange(offsetX: real, offsetY: real, width: real, height: real, hypot: (real, real) -> real)
    requires width > 0.0 && height > 0.0
    requires IsHypot(hypot)
    ensures var v := CardTransform(offsetX, offsetY, width, height, hypot);
      && 0.0 <= v.fromCenter <= 1.0
      && (v.fromCenter == 0.0 <==> v.pointerX == 50.0 && v.pointerY == 50.0)
      && (v.pointerX == 0.0 || v.pointerX == 100.0 || v.pointerY == 0.0 || v.pointerY == 100.0
          ==> v.fromCenter == 1.0)
  {
    var v := CardTransform(offsetX, offsetY, width, height, hypot);
    var h := hypot(v.pointerY - 50.0, v.pointerX - 50.0);
    assert Max(Abs(v.pointerY - 50.0), Abs(v.pointerX - 50.0)) <= h;
  }

  /** `Math.min(Math.max(elapsed / duration, 0), 1)` */
  function Progress(elapsed: real, duration: real): (p: real)
    requires duration > 0.0
    ensures 0.0 <= p <= 1.0
  {
    Clamp(elapsed / duration, 0.0, 1.0)
  }

  /** Progress is complete exactly when the whole duration has elapsed, and
      zero until the animation starts. */
  lemma ProgressCompletes(elapsed: real, duration: real)
    requires duration > 0.0
    ensures Progress(elapsed, duration) < 1.0 <==> elapsed < duration
    ensures elapsed <= 0.0 ==> Progress(elapsed, duration) == 0.0
  {
    var q := elapsed / duration;
    assert q * duration == elapsed;
    if elapsed < duration {
      assert q < 1.0;
    } else {
      assert q >= 1.0;
    }
  }

  /** The cubic ease-in-out curve. */
  function Eased(p: real): (e: real)
  {
    if p < 0.5 then 4.0 * p * p * p else 1.0 - Pow(-2.0 * p + 2.0, 3) / 2.0
  }

  lemma PowCube(x: real)
    ensures Pow(x, 3) == Cube(x)
  {
    assert Pow(x, 1) == x;
    assert Pow(x, 2) == x * x;
  }

  /** The two halves of the curve as cubes: `4p^3` below the middle and
      `1 - 4(1 - p)^3` from it on. */
  lemma EasedHalves(p: real)
    ensures p < 0.5 ==> Eased(p) == 4.0 * Cube(p)
    ensures p >= 0.5 ==> Eased(p) == 1.0 - 4.0 * Cube(1.0 - p)
  {
    PowCube(-2.0 * p + 2.0);
    var q := 1.0 - p;
    assert -2.0 * p + 2.0 == 2.0 * q;
    assert Cube(2.0 * q) == 8.0 * Cube(q);
  }

  /** The curve starts at 0, passes 1/2 at the middle and ends at 1. */
  lemma EasedEndpoints()
    ensures Eased(0.0) == 0.0 && Eased(0.5) == 0.5 && Eased(1.0) == 1.0
  {
    EasedHalves(0.5);
    EasedHalves(1.0);
  }

  /** The curve is point-symmetric about its middle. */
  lemma EasedSymmetric(p: real)
    ensures Eased(1.0 - p) == 1.0 - Eased(p)
  {
    EasedHalves(p);
    EasedHalves(1.0 - p);
    assert 1.0 - (1.0 - p) == p;
  }

  /** On `[0, 1]` the curve stays in `[0, 1]` and never decreases. */
  lemma EasedMonotone(p: real, q: real)
    requires 0.0 <= p <= q <= 1.0
    ensures 0.0 <= Eased(p) <= Eased(q) <= 1.0
  {
    EasedHalves(p);
    EasedHalves(q);
    assert Cube(0.5) == 0.125;
    if q < 0.5 {
      CubeMonotone(p, q);
      CubeMonotone(q, 0.5);
    } else if p >= 0.5 {
      CubeMonotone(1.0 - q, 1.0 - p);
      CubeMonotone(1.0 - p, 0.5);
    } else {
      CubeMonotone(p, 0.5);
      CubeMonotone(1.0 - q, 0.5);
    }
  }

  /** `(target - start) * eased + start` */
  function Interpolate(start: real, target: real, eased: real): real
  {
    (target - start) * eased + start
  }

  /** The interpolation starts at `start`, ends at `target`, and in between
      stays between them. */
  lemma InterpolateBetween(start: real, target: real, eased: real)
    ensures Interpolate(start, target, 0.0) == start
    ensures Interpolate(start, target, 1.0) == target
    ensures 0.0 <= eased <= 1.0 ==>
      Min(start, target) <= Interpolate(start, target, eased) <= Max(start, target)
  {
    if 0.0 <= eased <= 1.0 {
      var d := target - start;
      ScaleBetween(d, eased);
      assert Interpolate(start, target, eased) == d * eased + start;
    }
  }

  /** One frame of the return animation: where the pointer is drawn and
      whether another frame is requested. */
  datatype Frame = Frame(x: real, y: real, again: bool)

  /** `animationLoop(now)` for an animation that began at `startTime` from
      `(startX, startY)` towards the wrapper's centre. */
  function AnimationFrame(startTime: real, now: real, duration: real,
                          startX: real, startY: real, targetX: real, targetY: real): (f: Frame)
    requires duration > 0.0
    ensures f.again <==> now - startTime < duration
    ensures now - startTime >= duration ==> f.x == targetX && f.y == targetY
    ensures now - startTime <= 0.0 ==> f.x == startX && f.y == startY
  {
    var progress := Progress(now - startTime, duration);
    var eased := Eased(progress);
    ProgressCompletes(now - startTime, duration);
    EasedEndpoints();
    InterpolateBetween(startX, targetX, eased);
    InterpolateBetween(startY, targetY, eased);
    Frame(Interpolate(startX, targetX, eased), Interpolate(startY, targetY, eased), progress < 1.0)
  }

  /** Every frame draws the pointer on the segment from the start to the
      target, and later frames are never further from the target than
      earlier ones. */
  lemma FramesApproach(startTime: real, t1: real, t2: real, duration: real,
                       startX: real, startY: real, targetX: real, targetY: real)
    requires duration > 0.0 && t1 <= t2
    ensures var f1 := AnimationFrame(startTime, t1, duration, startX, startY, targetX, targetY);
      var f2 := AnimationFrame(startTime, t2, duration, startX, startY, targetX, targetY);
      && Min(startX, targetX) <= f1.x <= Max(startX, targetX)
      && Abs(targetX - f2.x) <= Abs(targetX - f1.x)
      && Abs(targetY - f2.y) <= Abs(targetY - f1.y)
  {
    var p1 := Progress(t1 - startTime, duration);
    var p2 := Progress(t2 - startTime, duration);
    ProgressMonotone(t1 - startTime, t2 - startTime, duration);
    EasedMonotone(p1, p2);
    InterpolateBetween(startX, targetX, Eased(p1));
    Remaining(startX, targetX, Eased(p1), Eased(p2));
    Remaining(startY, targetY, Eased(p1), Eased(p2));
  }

  lemma ProgressMonotone(a: real, b: real, duration: real)
    requires duration > 0.0 && a <= b
    ensures Progress(a, duration) <= Progress(b, duration)
  {
    DivMonotone(a, b, duration);
    ClampMonotone(a / duration, b / duration, 0.0, 1.0);
  }

  /** The distance left to the target is `|target - start| * (1 - e)`,
      which shrinks as `e` grows. */
  lemma Remaining(start: real, target: real, e1: real, e2: real)
    requires 0.0 <= e1 <= e2 <= 1.0
    ensures Abs(target - Interpolate(start, target, e2)) <= Abs(target - Interpolate(start, target, e1))
  {
    var d := target - start;
    RemainingIs(start, target, e1);
    RemainingIs(start, target, e2);
    MulMonotone(1.0 - e2, 1.0 - e1, Abs(d));
  }

  lemma RemainingIs(start: real, target: real, e: real)
    requires 0.0 <= e <= 1.0
    ensures Abs(target - Interpolate(start, target, e)) == (1.0 - e) * Abs(target - start)
  {
    var d := target - start;
    assert target - Interpolate(start, target, e) == (1.0 - e) * d;
    if d < 0.0 {
      assert (1.0 - e) * d == -((1.0 - e) * (-d));
      MulMonotone(0.0, 1.0 - e, -d);
    } else {
      MulMonotone(0.0, 1.0 - e, d);
    }
  }

  /** When the card fills its wrapper, the last frame of the return
      animation leaves the card flat with the pointer at its centre. */
  lemma ReturnSettlesFlat(startTime: real, now: real, duration: real,
                          startX: real, startY: real, width: real, height: real, hypot: (real, real) -> real)
    requires duration > 0.0 && width > 0.0 && height > 0.0
    requires now - startTime >= duration
    ensures var f := AnimationFrame(startTime, now, duration, startX, startY, width / 2.0, height / 2.0);
      var v := CardTransform(f.x, f.y, width, height, hypot);
      !f.again && v.rotateX == 0.0 && v.rotateY == 0.0 && v.pointerX == 50.0 && v.pointerY == 50.0
  {
    TiltFollowsPointer(width / 2.0, height / 2.0, width, height, hypot);
  }

  /** The minimum spacing between handled pointer moves, in milliseconds. */
  const ThrottleMs: real := 16.0

  /** `handlePointerMove`'s guard: a move at `now` is handled when at least
      16 ms have passed since the last handled one, which then becomes the
      last handled time. */
  datatype Throttled = Throttled(handled: bool, lastUpdate: real)

  function Throttle(lastUpdate: real, now: real): (t: Throttled)
    ensures t.handled <==> now - lastUpdate >= ThrottleMs
    ensures t.lastUpdate == if t.handled then now else lastUpdate
  {
    if now - lastUpdate < ThrottleMs then Throttled(false, lastUpdate) else Throttled(true, now)
  }

  /** The times of the moves handled out of a stream of moves. */
  function Handled(lastUpdate: real, times: seq<real>): seq<real>
    decreases |times|
  {
    if |times| == 0 then []
    else
      var t := Throttle(lastUpdate, times[0]);
      (if t.handled then [times[0]] else []) + Handled(t.lastUpdate, times[1..])
  }

  /** Handled moves are a subsequence of the stream, the first comes at
      least 16 ms after the last one handled before it, and any two
      consecutive ones are at least 16 ms apart. */
  lemma {:induction false} HandledSpaced(lastUpdate: real, times: seq<real>)
    ensures var h := Handled(lastUpdate, times);
      && |h| <= |times|
      && (forall i :: 0 <= i < |h| ==> h[i] in times)
      && (forall i :: 0 <= i < |h| ==> h[i] >= lastUpdate + ThrottleMs)
      && (forall i :: 0 <= i < |h| - 1 ==> h[i + 1] - h[i] >= ThrottleMs)
    decreases |times|
  {
    if |times| > 0 {
      var t := Throttle(lastUpdate, times[0]);
      HandledSpaced(t.lastUpdate, times[1..]);
      var rest := Handled(t.lastUpdate, times[1..]);
      assert forall x :: x in times[1..] ==> x in times;
      if t.handled {
        assert Handled(lastUpdate, times) == [times[0]] + rest;
      } else {
        assert Handled(lastUpdate, times) == rest;
      }
    }
  }
  /** The positions in `times`, from `from` on, of the moves the throttle
      lets through. */
  function HandledIndices(lastUpdate: real, times: seq<real>, from: nat): seq<nat>
    decreases |times| - from
  {
    if from >= |times| then []
    else
      var t := Throttle(lastUpdate, times[from]);
      (if t.handled then [from] else []) + HandledIndices(t.lastUpdate, times, from + 1)
  }

  /** Every handled move, from `from` on, is the move at its recorded
      position, and the positions increase. */
  lemma {:induction false} HandledInOrder(lastUpdate: real, times: seq<real>, from: nat)
    requires from <= |times|
    ensures var h := Handled(lastUpdate, times[from..]);
      var idx := HandledIndices(lastUpdate, times, from);
      && |idx| == |h|
      && (forall i :: 0 <= i < |idx| ==> from <= idx[i] < |times| && h[i] == times[idx[i]])
      && (forall i, j :: 0 <= i < j < |idx| ==> idx[i] < idx[j])
    decreases |times| - from
  {
    if from < |times| {
      var t := Throttle(lastUpdate, times[from]);
      HandledInOrder(t.lastUpdate, times, from + 1);
      assert times[from..][1..] == times[from + 1..];
    }
  }

  /** The handled moves are an ordered subsequence of the stream: each is
      the move at a position of its own, and the positions increase. */
  lemma HandledIsSubsequence(lastUpdate: real, times: seq<real>)
    ensures var h := Handled(lastUpdate, times);
      exists idx: seq<nat> ::
        && |idx| == |h|
        && (forall i :: 0 <= i < |idx| ==> idx[i] < |times| && h[i] == times[idx[i]])
        && (forall i, j :: 0 <= i < j < |idx| ==> idx[i] < idx[j])
  {
    HandledInOrder(lastUpdate, times, 0);
    assert times[0..] == times;
    var idx := HandledIndices(lastUpdate, times, 0);
    assert forall i :: 0 <= i < |idx| ==> idx[i] < |times|;
  }
}

=== FILE: track.dfy ===
/** The review list, the doubled track built from it, and the slot layout
    every card computes on resize (`createMedias` and `Media.onResize`). */
module Track {
  import opened Options

  /** One review as the carousel receives it. The rating is a JavaScript
      number; the star row compares indices with it directly. */
  datatype Review = Review(company: string, rating: real, text: string)

  /** The six built-in reviews used when the caller supplies none. */
  function DefaultReviews(): (r: seq<Review>)
    ensures |r| == 6
  {
    [ ArtisanCollectiveReview,
      ModernLivingReview,
      HeritageMuseumReview,
      BoutiqueHotelsReview,
      CreativeInteriorsReview,
      SculptureSocietyReview ]
  }

  const ArtisanCollectiveReview: Review := Review("Artisan Collective", 5.0,
    "Elena's ceramic sculptures transformed our gallery space completely. Her unique artistic vision and exceptional craftsmanship create pieces that captivate every visitor. Truly extraordinary work that exceeds all expectations.")
  const ModernLivingReview: Review := Review("Modern Living Co.", 5.0,
    "Working with Elena was an absolute pleasure. She created custom ceramic pieces that perfectly complement our interior design aesthetic. Her attention to detail and creative approach are simply unmatched.")
  const HeritageMuseumReview: Review := Review("Heritage Museum", 4.0,
    "Elena's sculptural ceramics brought a fresh contemporary perspective to our traditional collection. Her innovative techniques and artistic vision create dialogue between past and present beautifully.")
  const BoutiqueHotelsReview: Review := Review("Boutique Hotels Group", 5.0,
    "The ceramic installations Elena created for our properties are conversation starters. Guests are consistently amazed by the intricate details and unique forms. Professional service, artistic excellence.")
  const CreativeInteriorsReview: Review := Review("Creative Interiors", 4.0,
    "Elena's functional pottery pieces are works of art that our clients treasure. Each piece reflects her masterful understanding of form, texture, and glazing techniques. Highly recommended for discerning collectors.")
  const SculptureSocietyReview: Review := Review("Sculpture Society", 5.0,
    "Elena's innovative approach to clay as a medium pushes artistic boundaries. Her sculptures demonstrate technical mastery while maintaining emotional depth. A truly gifted artist whose work speaks volumes.")

  /** `reviews && reviews.length ? reviews : defaultReviews`: a missing or
      empty list falls back to the defaults, any other list is used as is. */
  function ReviewsToUse(reviews: Option<seq<Review>>): (r: seq<Review>)
    ensures |r| > 0
    ensures reviews.Some? && |reviews.value| > 0 ==> r == reviews.value
    ensures reviews.None? || |reviews.value| == 0 ==> r == DefaultReviews()
  {
    if reviews.Some? && |reviews.value| > 0 then reviews.value else DefaultReviews()
  }

  /** The track: the list used, followed by a second copy of itself, so
      card `i` and card `i + N` show the same review. */
  function BuildTrack(reviews: Option<seq<Review>>): (t: seq<Review>)
    ensures |t| == 2 * |ReviewsToUse(reviews)|
    ensures |t| % 2 == 0 && |t| >= 2
    ensures forall i :: 0 <= i < |ReviewsToUse(reviews)| ==>
      t[i] == ReviewsToUse(reviews)[i] && t[i + |ReviewsToUse(reviews)|] == ReviewsToUse(reviews)[i]
  {
    var used := ReviewsToUse(reviews);
    used + used
  }

  /** An empty or missing list yields the twelve-card default track. */
  lemma EmptyFallsBack(reviews: Option<seq<Review>>)
    requires reviews.None? || reviews.value == []
    ensures |BuildTrack(reviews)| == 12
    ensures BuildTrack(reviews)[..6] == DefaultReviews()
    ensures BuildTrack(reviews)[6..] == DefaultReviews()
  {
  }

  /** A size in pixels (`ScreenSize`) or in world units (`Viewport`). */
  datatype Size = Size(width: real, height: real)

  /** The per-card geometry `Media.onResize` derives: plane scale, slot
      width (scale plus padding), full track width, and home position. */
  datatype Slot = Slot(scaleX: real, scaleY: real, width: real, widthTotal: real, x: real)

  /** The gap added to each card's plane width to form its slot. */
  const Padding: real := 3.0

  /** `Media.onResize` for the card at `index` of a track of `length`
      cards. The divisions by the screen size need a non-empty container. */
  function SlotLayout(screen: Size, viewport: Size, index: nat, length: nat): (s: Slot)
    requires screen.width > 0.0 && screen.height > 0.0
    ensures s.scaleX == viewport.width * (800.0 * (screen.height / 1500.0)) / screen.width
    ensures s.scaleY == viewport.height * (900.0 * (screen.height / 1500.0)) / screen.height
    ensures s.width == s.scaleX + Padding
    ensures viewport.width >= 0.0 ==> s.scaleX >= 0.0 && s.width >= Padding
    ensures s.x == s.width * index as real
    ensures s.widthTotal == s.width * length as real
  {
    var scale := screen.height / 1500.0;
    var scaleY := (viewport.height * (900.0 * scale)) / screen.height;
    var scaleX := (viewport.width * (800.0 * scale)) / screen.width;
    NonNegativeQuotient(viewport.width, 800.0 * scale, screen.width);
    var width := scaleX + Padding;
    Slot(scaleX, scaleY, width, width * length as real, width * index as real)
  }

  /** The world-space viewport `App.onResize` derives from the container:
      its height is fixed by the camera (`2 tan(fov / 2) z`, here the
      parameter `viewHeight`), and its width follows the container's aspect
      ratio. */
  function ViewportFor(screen: Size, viewHeight: real): (v: Size)
    requires screen.height > 0.0
    ensures v.height == viewHeight
    ensures v.width * screen.height == viewHeight * screen.width
    ensures viewHeight > 0.0 && screen.width > 0.0 ==> v.width > 0.0
  {
    var aspect := screen.width / screen.height;
    Size(viewHeight * aspect, viewHeight)
  }

  /** With the viewport derived from the container, the plane's size in
      world units depends on the camera alone: the screen size cancels out
      of both scales. */
  lemma SlotIgnoresScreen(screen: Size, viewHeight: real, index: nat, length: nat)
    requires screen.width > 0.0 && screen.height > 0.0
    ensures var s := SlotLayout(screen, ViewportFor(screen, viewHeight), index, length);
      && s.scaleX == viewHeight * 800.0 / 1500.0
      && s.scaleY == viewHeight * 900.0 / 1500.0
  {
    var v := ViewportFor(screen, viewHeight);
    var sw, sh := screen.width, screen.height;
    var scale := sh / 1500.0;
    var aspect := sw / sh;
    assert aspect * sh == sw;
    assert v.width == viewHeight * aspect;
    calc {
      v.width * (800.0 * scale);
      (viewHeight * aspect) * (800.0 * (sh / 1500.0));
      { assert (viewHeight * aspect) * (800.0 * (sh / 1500.0)) == (viewHeight * 800.0 / 1500.0) * (aspect * sh); }
      (viewHeight * 800.0 / 1500.0) * (aspect * sh);
      (viewHeight * 800.0 / 1500.0) * sw;
    }
    DivideOut(viewHeight * 800.0 / 1500.0, sw);
    calc {
      v.height * (900.0 * scale);
      viewHeight * (900.0 * (sh / 1500.0));
      { assert viewHeight * (900.0 * (sh / 1500.0)) == (viewHeight * 900.0 / 1500.0) * sh; }
      (viewHeight * 900.0 / 1500.0) * sh;
    }
    DivideOut(viewHeight * 900.0 / 1500.0, sh);
  }

  lemma DivideOut(q: real, d: real)
    requires d > 0.0
    ensures (q * d) / d == q
  {
  }

  /** Two container sizes seen through the same camera give identical
      slots: resizing the window never changes the track. */
  lemma SlotSameForAnyScreen(s1: Size, s2: Size, viewHeight: real, index: nat, length: nat)
    requires s1.width > 0.0 && s1.height > 0.0
    requires s2.width > 0.0 && s2.height > 0.0
    ensures SlotLayout(s1, ViewportFor(s1, viewHeight), index, length)
         == SlotLayout(s2, ViewportFor(s2, viewHeight), index, length)
  {
    SlotIgnoresScreen(s1, viewHeight, index, length);
    SlotIgnoresScreen(s2, viewHeight, index, length);
  }

  lemma NonNegativeQuotient(a: real, b: real, c: real)
    requires c > 0.0 && b >= 0.0
    ensures a >= 0.0 ==> a * b / c >= 0.0
  {
    if a >= 0.0 {
      assert a * b >= 0.0;
    }
  }

  /** Every slot of one layout has the same width and track width, home
      positions step by exactly one slot width, and the last slot ends
      exactly at the track width, so the slots tile `[0, widthTotal)`. */
  lemma SlotsTile(screen: Size, viewport: Size, length: nat, i: nat, j: nat)
    requires screen.width > 0.0 && screen.height > 0.0
    requires i < length && j < length
    ensures SlotLayout(screen, viewport, i, length).width == SlotLayout(screen, viewport, j, length).width
    ensures SlotLayout(screen, viewport, i, length).widthTotal == SlotLayout(screen, viewport, j, length).widthTotal
    ensures j == i + 1 ==>
      SlotLayout(screen, viewport, j, length).x - SlotLayout(screen, viewport, i, length).x
        == SlotLayout(screen, viewport, i, length).width
    ensures i == length - 1 ==>
      SlotLayout(screen, viewport, i, length).x + SlotLayout(screen, viewport, i, length).width
        == SlotLayout(screen, viewport, i, length).widthTotal
  {
    var si := SlotLayout(screen, viewport, i, length);
    var sj := SlotLayout(screen, viewport, j, length);
    if j == i + 1 {
      Distribute(si.width, i as real);
    }
    if i == length - 1 {
      Distribute(si.width, i as real);
    }
  }

  lemma Distribute(w: real, i: real)
    ensures w * (i + 1.0) == w * i + w
  {
  }

  /** The twin of card `i` in the second half of the track sits exactly half
      a track width further along. */
  lemma TwinsHalfTrackApart(screen: Size, viewport: Size, n: nat, i: nat)
    requires screen.width > 0.0 && screen.height > 0.0
    requires i < n
    ensures SlotLayout(screen, viewport, i + n, 2 * n).x - SlotLayout(screen, viewport, i, 2 * n).x
      == SlotLayout(screen, viewport, i, 2 * n).widthTotal / 2.0
  {
    var s := SlotLayout(screen, viewport, i, 2 * n);
    var w := s.width;
    assert w * ((i + n) as real) == w * i as real + w * n as real;
    assert w * ((2 * n) as real) == 2.0 * (w * n as real);
  }
}
